=== FILE: README.md ===
# node-virtualbox text core in Dafny

`lib/virtualbox.js` drives VirtualBox through the `VBoxManage` command-line
tool. Most of it spawns processes and wraps them in promises. Inside those
wrappers sit small text routines. Some build command lines:

- `modify`
- `keyboardputscancode`
- `snapshotTake`
- `vmExec`

Others read VBoxManage's answers:

- `parse_listdata` and the running-flag merge of `list`
- the snapshot dump parser of `snapshotList`
- the uuid reader of `snapshotTake`
- the value reader of `guestproperty.get` and `extradata.get`
- the guest-OS classifier of `guestproperty.os`
- the success rule of `command`

This project models those routines and proves what they promise. The
standard output of a command is an input string. The VirtualBox version is
an input number. The platform's line separator (`os.EOL`) is an input
restricted to `"\n"` or `"\r\n"`.

The modules follow the source's pieces:

| module | file | what it holds |
|---|---|---|
| `Wrappers` | `wrappers.dfy` | `Option` and `Result` |
| `JsText` | `js_text.dfy` | The JavaScript string operations the core uses: `trim` (ECMAScript white space and line terminators), `indexOf`, `split` with a string separator, `join`. |
| `ListData` | `list_data.dfy` | `parse_listdata` as an index loop that fills a map; `list`'s merge loop; the regular expression `^"(.+)" \{(.+)\}$` as a predicate with a greedy-split contract. |
| `SnapshotDump` | `snapshot_dump.dfy` | The `forEach` of `snapshotList` as a loop over `snapshots` and `currentSnapshot`. It is proved equal to a declarative reading of the dump: one record per name line, each uuid line setting the latest record. |
| `Json` | `json.dfy` | `JSON.stringify` of a string (QuoteJSONString, section 7 of RFC 8259) and a reader for string literals. |
| `SnapshotTake` | `snapshot_take.dfy` | The appended `snapshot ... take ...` command and its reader; the regular expression `UUID\: ([a-f0-9\-]+)$` on the trimmed output. |
| `Modify` | `modify.dfy` | The `args` loop of `modify` with its `TypeError` on a missing value; the quoting and joining of the `modifyvm` command. |
| `ScanCodes` | `scan_codes.dfy` | `code.toString(16)`, the padding zero and the join of `keyboardputscancode`. |
| `Responses` | `responses.dfy` | Property values (`No value set!`), guest-OS classification, and the outcome rule of `command`. |
| `VmExec` | `vm_exec.dfy` | The `\|\|` option chains of `vmExec`, the subcommand chosen by version, and the three per-OS `guestcontrol` templates. |

Regular expressions become explicit predicates. A line "splits" when it can
be written as the pattern's literal text around its groups, with no line
terminator anywhere, since `.` matches none. Where a group is greedy, the
contract says that the match takes the longest such group.

## Model

| member | source | states |
|---|---|---|
| `ListData.MatchListLine` | lib/virtualbox.js:120-123 | A match is a split of the line into `"name" {uuid}` with both groups non-empty and no line terminator. Its name is the longest of all splits: the greedy first group splits at the last `" {`. No match means the line has no split at all. |
| `ListData.MatchFormattedLine` | lib/virtualbox.js:119-125 | A line `"name" {uuid}` reads back as exactly that name and uuid. The name may contain `" {`; the uuid holds no double quote or line terminator. |
| `ListData.SplitLines` | lib/virtualbox.js:111 | `split(/\r?\n/)` yields one line per `\n`-separated piece, and no line contains `\n`. |
| `ListData.SplitLinesOfCrLf` | lib/virtualbox.js:111 | Lines without `\n` joined by `\r\n` split back into exactly those lines: the `\r` before each `\n` is dropped. |
| `ListData.SplitLinesOfLf` | lib/virtualbox.js:111 | Lines without `\n` joined by `\n` split back into exactly those lines, when none but the last ends in `\r`. |
| `ListData.ParseListData` | lib/virtualbox.js:110-131 | The index loop builds exactly the map of the lines read in order: each matching line sets its uuid to `{name}`, and other lines, the empty one included, change nothing. No entry has `running` yet. |
| `ListData.ListDataKeys` | lib/virtualbox.js:114-128 | A uuid is a key of the parsed map exactly when some line matches with that uuid. |
| `ListData.ListDataLastWins` | lib/virtualbox.js:123-127 | A uuid's entry holds the name of the last line that lists it, so a later duplicate overwrites an earlier one. |
| `ListData.MarkRunning` | lib/virtualbox.js:90-98 | The merge keeps the key set and every name. It sets `running` to true exactly when the key is in the running map, and to false otherwise. |
| `ListData.List` | lib/virtualbox.js:82-108 | `list` returns the keys and names of the full listing. Every VM's `running` is set: true when some line of the running listing lists its uuid, and false when none does. |
| `JsText.Trim` | lib/virtualbox.js:513 | `trim` leaves a text with no white space or line terminator at either end. |
| `JsText.IndexOf` | lib/virtualbox.js:513 | `indexOf` is -1 exactly when the pattern does not occur. Otherwise it is the first place where the pattern occurs. |
| `JsText.Split` | lib/virtualbox.js:294 | `split` with a string separator yields at least one piece, and no piece contains the separator. |
| `JsText.JoinSplit` | lib/virtualbox.js:294 | Splitting at a separator loses no text: joining the pieces gives the input back. |
| `JsText.SplitJoin` | lib/virtualbox.js:393-399 | Joining parts that do not contain the separator's first character, then splitting, gives the parts back. |
| `SnapshotDump.KeyOf` | lib/virtualbox.js:296 | The first group is the key that starts the line, or none when no key starts it. |
| `SnapshotDump.KeysExclusive` | lib/virtualbox.js:296 | No line starts with two different keys, so at most one alternative of the first group can match. |
| `SnapshotDump.ClassifyDumpLine` | lib/virtualbox.js:296 | No key at the start means no match. A match's key is the one that starts the line, and a matched line ends in `"` and holds no line terminator. |
| `SnapshotDump.ClassifyDumpLineSpec` | lib/virtualbox.js:296 | A match is a split `<key><gap>="<value>"` of the line. Every split has the same key and a gap no longer than the match's, as the greedy `.*` requires. No match means no split. |
| `SnapshotDump.DumpLineRoundTrip` | lib/virtualbox.js:296 | A line `<key><gap>="<value>"` whose value holds no double quote reads back with that key, gap and value. |
| `SnapshotDump.SuffixedNameLine` | lib/virtualbox.js:296 | `SnapshotName-1="x"` is a name line with value `x`. |
| `SnapshotDump.FieldOf` | lib/virtualbox.js:296 | The callback matches the trimmed line: a line that is already trimmed is matched as it is, and a match's key starts the trimmed line. |
| `SnapshotDump.RecordsSnoc` | lib/virtualbox.js:297-308 | One more line changes the records as the callback does. A name line appends a record without uuid; a uuid line sets the uuid of the last record only; any other line changes nothing. |
| `SnapshotDump.DumpOfSnoc` | lib/virtualbox.js:295-310 | One more line is one step of the callback. A uuid line before any record is the error. A current-snapshot line sets the current uuid. |
| `SnapshotDump.ParseSnapshotDump` | lib/virtualbox.js:294-310 | The loop's `snapshots` and `currentSnapshot` equal the declarative reading of the lines. The result is an error exactly when a uuid line comes before every name line. |
| `SnapshotDump.RecordNames` | lib/virtualbox.js:300-305 | There is one record per name line, in input order, named by that line's value. |
| `SnapshotDump.LastValueSpec` | lib/virtualbox.js:297-299 | The current uuid is the value of a current-snapshot line that no later current-snapshot line follows: the last one wins. |
| `SnapshotDump.LastValueNone` | lib/virtualbox.js:297-299 | The current uuid is absent exactly when no line is a current-snapshot line. |
| `SnapshotDump.SnapshotListAsWritten` | lib/virtualbox.js:291-312 | `snapshotList` as written resolves with the records of the split output only, named in input order. |
| `SnapshotDump.ResolvedIgnoresCurrent` | lib/virtualbox.js:312 | Whatever current snapshot a dump holds, the caller receives the same records: the current uuid never reaches it. |
| `SnapshotDump.SnapshotList` | lib/virtualbox.js:291-312 | The corrected `snapshotList` resolves with the records and the current uuid of the last current-snapshot line. |
| `SnapshotDump.CurrentOnlyDump` | lib/virtualbox.js:294-312 | The output of a machine whose only line is a current-snapshot line parses to no records and that current uuid. |
| `SnapshotDump.CurrentSnapshotDropped` | lib/virtualbox.js:312 | The one-line outputs `CurrentSnapshotUUID="v1"` and `CurrentSnapshotUUID="v2"` with `v1 != v2` have different dumps but resolve to the same value. |
| `Json.EscapeDecodes` | lib/virtualbox.js:330-332 | The escaped characters of a string, followed by the closing quote, read back as that string. |
| `Json.Quote` | lib/virtualbox.js:330-332 | `JSON.stringify` of a string is enclosed in double quotes and reads back as exactly that string, with nothing left over. |
| `Json.QuoteDecodes` | lib/virtualbox.js:330-332 | What `JSON.stringify` writes for a string reads back as the string, and the text after it is untouched. |
| `SnapshotTake.TakeCommand` | lib/virtualbox.js:330-336 | The appended command is the text of its request. The description is kept only when truthy, and `live` is set only for `true` itself. The command reads back as that request. |
| `SnapshotTake.TakeCommandParses` | lib/virtualbox.js:330-336 | Every take command reads back as the vm, name, description and live flag it was built from. |
| `SnapshotTake.TakeOptionsParse` | lib/virtualbox.js:331-336 | The optional ` --description` and ` --live` tail reads back as the options it was built from. |
| `SnapshotTake.UuidMatchUnique` | lib/virtualbox.js:340 | The uuid expression matches at one place at most. |
| `SnapshotTake.UuidMatch` | lib/virtualbox.js:340-341 | A result is the group of a match. When the expression matches anywhere, the result is that match's group; when it matches nowhere, there is no result. |
| `SnapshotTake.TakenUuid` | lib/virtualbox.js:339-343 | The uuid is the group of a match of the expression in the trimmed output. When the expression matches there, the uuid is that match's group. |
| `SnapshotTake.TakenUuidOfOutput` | lib/virtualbox.js:339-343 | Any output ending in `UUID: <uuid>` plus trailing white space yields that uuid, whatever comes before it, leading white space included. |
| `Modify.PropertyArgs` | lib/virtualbox.js:263-269 | A property's arguments start with `--<name>`. |
| `Modify.FirstMissing` | lib/virtualbox.js:260-268 | This is the index of the first property without a value. Every property before it has one. |
| `Modify.MissingAt` | lib/virtualbox.js:262-268 | Before the first missing value, property `i` is the first missing one exactly when its value is missing. |
| `Modify.FlatArgsSnoc` | lib/virtualbox.js:260-270 | One more property appends exactly its own arguments. |
| `Modify.ModifyArgs` | lib/virtualbox.js:259-271 | The loop yields `[vname]`, then each property's `--<name>` and its array elements or text, in order. It fails with the name of the first property whose value is missing. |
| `Modify.JoinQuoted` | lib/virtualbox.js:273-275 | Quoting every argument and joining with spaces gives one quote, the arguments joined by `" "`, and one quote. |
| `Modify.ModifyCommand` | lib/virtualbox.js:273-275 | The command is `modifyvm "`, the arguments joined by `" "`, and a closing quote; with no arguments it is `modifyvm ` alone. |
| `Modify.ModifyCommandParses` | lib/virtualbox.js:273-275 | When no argument holds a double quote, the `modifyvm` command reads back as its arguments. |
| `Modify.QuoteInArgument` | lib/virtualbox.js:273-275 | Quotes are not escaped: an argument holding `" "` gives the same command as the two arguments around it. |
| `Modify.ModifyCommandFor` | lib/virtualbox.js:259-275 | `modify` yields the `modifyvm` command of the arguments, or the error of the first missing value. |
| `ScanCodes.Hex` | lib/virtualbox.js:394 | `toString(16)` gives lower-case digits with no leading zero. It has one digit exactly below 16 and at least three from 256 on. |
| `ScanCodes.HexNumberOfHex` | lib/virtualbox.js:394 | The digits stand for the number they were written from. |
| `ScanCodes.TokenShape` | lib/virtualbox.js:394-397 | A non-negative code's token has at least two lower-case digits. It starts with `0` exactly when the code is below 16, and it is the padded hex. It stands for the code, and has three digits or more from 256 on (no truncation). |
| `ScanCodes.CodeToken` | lib/virtualbox.js:393-398 | A code's token has at least two characters and no space, and reads back as its code, negative codes included. |
| `ScanCodes.ScanCodeString` | lib/virtualbox.js:393-399 | The scan code string is empty exactly when there are no codes. Splitting it at spaces gives one token per code, and reading the tokens gives the codes back. |
| `Responses.PropertyValue` | lib/virtualbox.js:513-516 | A value is trimmed and is never `No value set!`. |
| `Responses.PropertyValueOfLine` | lib/virtualbox.js:513-516 | `<key>:<ws><v><ws>` gives `v`, even when `v` holds colons. `No value set!` gives none. |
| `Responses.PropertyValueAt` | lib/virtualbox.js:513-516 | When a colon stands at `i` and none comes before it, the value is the trimmed text after that colon, or none when that is `No value set!`. |
| `JsText.FirstOccurrence` | lib/virtualbox.js:513 | `indexOf` gives the place of an occurrence that no earlier occurrence precedes. |
| `Responses.PropertyValueWithoutColon` | lib/virtualbox.js:557-560 | Without a colon, the whole trimmed output is the value, or none when it is `No value set!`. |
| `Responses.GuestOs` | lib/virtualbox.js:531-537 | The guest is Windows exactly when `ostype="Windows` occurs. It is Mac exactly when that does not occur and `ostype="MacOS` does, and Linux in every other case. |
| `Responses.WindowsLine` | lib/virtualbox.js:531-532 | An `ostype` line naming a Windows release makes the guest Windows wherever it stands. |
| `Responses.MacLine` | lib/virtualbox.js:533-534 | An `ostype` line naming a macOS release makes the guest Mac when nothing names Windows. |
| `Responses.CommandOutcome` | lib/virtualbox.js:38-42 | `command` either rejects with stderr or resolves with stdout. |
| `Responses.CommandOutcomeSpec` | lib/virtualbox.js:38-42 | `command` rejects exactly when exec reported no error, stderr is non-empty, and the command contains both `pause` and `savestate`. |
| `Responses.ExecErrorResolves` | lib/virtualbox.js:37-42 | An exec error is dropped: `command` resolves with stdout. |
| `Responses.CommandOutcomeIntended` | lib/virtualbox.js:37-42 | The corrected `command` rejects exactly when exec reported an error, or when stderr is non-empty and the command contains both `pause` and `savestate`. An exec error rejects with its message, the other rejection with stderr, and success resolves with stdout. |
| `Responses.InvalidStateReachesStart` | lib/virtualbox.js:172-176 | The error `start` tests for reaches it under the corrected rule, but not under the rule as written. |
| `VmExec.FirstTruthySpec` | lib/virtualbox.js:413-417 | An `\|\|` chain yields the first truthy option. When none is truthy, it yields the last one. |
| `VmExec.RunCommand` | lib/virtualbox.js:427-431 | The subcommand is ` run ` exactly when the version is known and at least 5, and it is set off by spaces on both sides. |
| `VmExec.ReadOptions` | lib/virtualbox.js:413-424 | The user name is `user` when truthy, else `username` when truthy, else `Guest`, so it is always truthy. `params` is empty when none of its three keys is set, the elements joined by spaces for an array, and the text for a non-empty string. |
| `VmExec.DoubleBackslashes` | lib/virtualbox.js:434 | Doubling the backslashes loses nothing: halving the pairs gives the path back. |
| `VmExec.ExecCommand` | lib/virtualbox.js:426-445 | Building the command fails exactly for a Windows guest whose path is not a string, where `path.replace` throws. |
| `VmExec.ExecCommandWindowsPath` | lib/virtualbox.js:433-436 | For a Windows guest with a string path, the command is built, and it ends with ` -- "/c" "`, the path with its backslashes doubled, `" "`, the parameters and a closing quote. |
| `VmExec.ExecCommandPathAsIs` | lib/virtualbox.js:437-442 | For a Mac or Linux guest the command is always built. It ends with ` -- `, the flag `"/c"` for Mac or `"-c"` for Linux, and then the path text unchanged and the parameters, each in quotes. |
| `VmExec.ExecCommandPassword` | lib/virtualbox.js:426-441 | The command starts with the VM, the subcommand, the program and ` --username <user>`. Next comes ` --password <password> -- ` when the password is truthy, and ` -- ` right away when it is not. |
| `VmExec.ExecCommandNamesProgram` | lib/virtualbox.js:426-442 | The command names the guest's program right after the subcommand, so different guests never get the same command. |

## Left out

- Spawning `VBoxManage` and `VBoxControl` is not modelled: stdout, stderr and the exec error are inputs. The promise and bluebird wrappers, the callback shuffling of `start` and `snapshotTake`, the swapped parameters of `poweroff`, and every `logging` call are not modelled.
- The version probe at load time (`--version`, `split(".")[0]`) is not modelled. The `vbox_version` is an optional number, and the JavaScript comparison of a string with 5 is not modelled.
- The binary path chosen from `process.platform` and the environment is not modelled.
- `require('os').EOL` is a parameter, `"\n"` or `"\r\n"`.
- The `guestproperty.os_type` cache is left out. Classification is a pure function of the output.
- The verbs that only pass a fixed command through (pause, reset, resume, stop, savestate, poweroff, acpi buttons, snapshot delete and restore, extradata.set) are not modelled. They hold no text logic beyond concatenating their arguments.
- `vmKill` (lines 461-502) is not modelled. It picks `C:\Windows\System32\taskkill.exe /im ` as the path for a Windows guest and `killall ` for Mac and Linux. It then calls `vmExec` with those options and with `image_name || path` as the parameters, so its command is the one `VmExec.ExecCommand` builds from them. The `cmd` string it builds itself is never used.
- Commands are handed to `child_process.exec`, and so to `/bin/sh`. Inside double quotes the shell still expands `$`, backquote and `\`. `SnapshotTake.TakeCommandParses` and `Modify.ModifyCommandParses` show that the command text encodes its request unambiguously. They do not describe the arguments `VBoxManage` receives after the shell has expanded them; shell expansion is not modelled.
- `isRunning` (lines 374-390) is not modelled. It reports a VM as running when its name occurs anywhere in the `list runningvms` output, a plain `indexOf` substring test. `vmExport` (lines 207-218) is not modelled either: it passes `export "<vm>" --output "<output>"` through. The `SCAN_CODES` table exported from `lib/scan-codes.js` is not part of this model.
- Strings are sequences of Unicode scalar values. JavaScript's UTF-16 strings can hold lone surrogates, which this model cannot represent; `JSON.stringify` escapes those, and the model does not.
- `Modify.ModifyArgs`: properties are a sequence in `for...in` enumeration order. The order JavaScript gives own keys (integer-like keys first) and inherited keys, which `hasOwnProperty` skips, are not modelled. A value's `toString()` is given as text, and numbers and booleans are not modelled separately. An array's elements are strings.
- `SnapshotTake.TakeCommand`: `vmname`, `name` and `description` are strings or absent. `JSON.stringify` of numbers, objects or `undefined`, and `description` values of other types, are not modelled. `live` is a boolean or absent.
- `ScanCodes.ScanCodeString`: codes are integers. Fractional numbers, and other values whose `toString(16)` differs, are not modelled.
- `VmExec.ExecCommand`: option values are strings or arrays of strings. Numbers, objects and `null` are not modelled, and neither is the `default` branch for an OS type outside the three kinds classification returns. Running the command and the promise's result are left out.
- `ListData.ParseListData`, `ListData.MarkRunning`, `ListData.List`: JavaScript objects are modelled as maps. A uuid that names a property of `Object.prototype` is not modelled: the lookup at line 93 would find an inherited value such as `constructor`, and the assignment at line 124 to `__proto__` would replace the prototype rather than add a key. VBoxManage prints uuids, which never take such names.
- `guestproperty.get` does not pass the inner command's rejection on; that is promise plumbing and is not modelled. Only the value reading is.

## Findings

| source | as written | input that shows it | evidently intended | confidence | as-written member | corrected member |
|---|---|---|---|---|---|---|
| lib/virtualbox.js:312 | `resolve(snapshots, currentSnapshot)` passes two values, and a promise resolves with the first one only, so the current snapshot is lost | output `CurrentSnapshotUUID="a"` versus `CurrentSnapshotUUID="b"`: both resolve to the same empty list | resolve with the records together with the current uuid | high, not executed | `SnapshotDump.SnapshotListAsWritten`, `SnapshotDump.CurrentSnapshotDropped` | `SnapshotDump.SnapshotList` |
| lib/virtualbox.js:38-42 | `command` resolves with stdout whenever exec reports an error, so no caller ever sees it | `startvm` failing with an error whose message holds `VBOX_E_INVALID_OBJECT_STATE`: `command` resolves, and the handler at lines 172-176 is never reached | reject with the exec error | medium, not executed | `Responses.CommandOutcome`, `Responses.ExecErrorResolves` | `Responses.CommandOutcomeIntended`, `Responses.InvalidStateReachesStart` |

=== FILE: js_text.dfy ===
/**
 * The few pieces of ECMAScript string behaviour the parsers rely on:
 * `String.prototype.trim`, `indexOf`, `split` with a string separator,
 * `Array.prototype.join`, and the character class that `.` in a
 * regular expression refuses to match.
 */
module JsText {

  /** ECMAScript LineTerminator: the characters `.` does not match. */
  predicate IsLineTerminator(c: char) {
    c == '\n' || c == '\r' || c == '\U{2028}' || c == '\U{2029}'
  }

  predicate NoLineTerminator(s: string) {
    forall i :: 0 <= i < |s| ==> !IsLineTerminator(s[i])
  }

  lemma NoLineTerminatorConcat(a: string, b: string)
    requires NoLineTerminator(a) && NoLineTerminator(b)
    ensures NoLineTerminator(a + b)
  {
    forall k | 0 <= k < |a + b| ensures !IsLineTerminator((a + b)[k]) {
      if k >= |a| {
        assert (a + b)[k] == b[k - |a|];
      }
    }
  }

  /** ECMAScript WhiteSpace or LineTerminator: what `trim` removes. */
  predicate IsTrimmable(c: char) {
    IsLineTerminator(c) || c == '\t' || c == '\U{B}' || c == '\U{C}' || c == ' '
    || c == '\U{A0}' || c == '\U{FEFF}' || c == '\U{1680}'
    || ('\U{2000}' <= c <= '\U{200A}') || c == '\U{202F}' || c == '\U{205F}' || c == '\U{3000}'
  }

  predicate AllTrimmable(s: string) {
    forall i :: 0 <= i < |s| ==> IsTrimmable(s[i])
  }

  /** A string `trim` leaves as it is. */
  predicate IsTrimmed(s: string) {
    s == [] || (!IsTrimmable(s[0]) && !IsTrimmable(s[|s| - 1]))
  }

  /** Removes leading white space: the result is the suffix that starts at the first other character. */
  function TrimStart(s: string): (r: string)
    ensures |r| <= |s| && r == s[|s| - |r|..]
    ensures AllTrimmable(s[..|s| - |r|])
    ensures r == [] || !IsTrimmable(r[0])
  {
    if s != [] && IsTrimmable(s[0]) then TrimStart(s[1..]) else s
  }

  /** Removes trailing white space: the result is the prefix that ends at the last other character. */
  function TrimEnd(s: string): (r: string)
    ensures |r| <= |s| && r == s[..|r|]
    ensures AllTrimmable(s[|r|..])
    ensures r == [] || !IsTrimmable(r[|r| - 1])
  {
    if s != [] && IsTrimmable(s[|s| - 1]) then
      TrimmableSuffixes(s);
      TrimEnd(s[..|s| - 1])
    else s
  }

  /** Dropping a trailing white space character keeps every suffix of the rest white space. */
  lemma TrimmableSuffixes(s: string)
    requires s != [] && IsTrimmable(s[|s| - 1])
    ensures forall k :: 0 <= k <= |s| - 1 && AllTrimmable(s[..|s| - 1][k..]) ==> AllTrimmable(s[k..])
  {
    forall k | 0 <= k <= |s| - 1 && AllTrimmable(s[..|s| - 1][k..])
      ensures AllTrimmable(s[k..])
    {
      forall j | 0 <= j < |s[k..]| ensures IsTrimmable(s[k..][j]) {
        if k + j < |s| - 1 {
          assert s[k..][j] == s[..|s| - 1][k..][j];
        }
      }
    }
  }

  /** `String.prototype.trim`. */
  function Trim(s: string): (r: string)
    ensures IsTrimmed(r)
  {
    TrimStart(TrimEnd(s))
  }

  /** `trim` keeps an infix of the text and removes only white space around it. */
  lemma TrimInfix(s: string)
    ensures var r := Trim(s);
      exists k :: 0 <= k <= |s| - |r| && s[k..k + |r|] == r && AllTrimmable(s[..k]) && AllTrimmable(s[k + |r|..])
  {
    TrimmedInfix(s, TrimEnd(s), Trim(s));
  }

  lemma TrimmedInfix(s: string, e: string, r: string)
    requires |e| <= |s| && e == s[..|e|] && AllTrimmable(s[|e|..])
    requires |r| <= |e| && r == e[|e| - |r|..] && AllTrimmable(e[..|e| - |r|])
    ensures exists k :: 0 <= k <= |s| - |r| && s[k..k + |r|] == r && AllTrimmable(s[..k]) && AllTrimmable(s[k + |r|..])
  {
    var k := |e| - |r|;
    assert s[k..k + |r|] == r;
    assert AllTrimmable(s[..k]) by {
      forall i | 0 <= i < k ensures IsTrimmable(s[..k][i]) {
        assert s[..k][i] == e[..k][i];
      }
    }
  }

  lemma TrimTrimmed(s: string)
    requires IsTrimmed(s)
    ensures Trim(s) == s
  {
  }

  /** White space around a trimmed text is what `trim` removes. */
  lemma TrimAround(w1: string, v: string, w2: string)
    requires AllTrimmable(w1) && AllTrimmable(w2) && IsTrimmed(v)
    ensures Trim(w1 + v + w2) == v
  {
    TrimEndAppend(w1 + v, w2);
    if v == [] {
      assert w1 + v == w1;
    } else {
      assert (w1 + v)[|w1 + v| - 1] == v[|v| - 1];
    }
    TrimStartAppend(w1, v);
  }

  lemma {:induction false} TrimStartAppend(w: string, s: string)
    requires AllTrimmable(w)
    ensures TrimStart(w + s) == TrimStart(s)
  {
    if w != [] {
      assert (w + s)[1..] == w[1..] + s;
      TrimStartAppend(w[1..], s);
    } else {
      assert w + s == s;
    }
  }

  lemma {:induction false} TrimEndAppend(s: string, w: string)
    requires AllTrimmable(w)
    ensures TrimEnd(s + w) == TrimEnd(s)
  {
    if w != [] {
      assert (s + w)[..|s + w| - 1] == s + w[..|w| - 1];
      TrimEndAppend(s, w[..|w| - 1]);
    } else {
      assert s + w == s;
    }
  }

  predicate StartsWith(s: string, p: string) {
    |p| <= |s| && s[..|p|] == p
  }

  predicate EndsWith(s: string, p: string) {
    |p| <= |s| && s[|s| - |p|..] == p
  }

  /** `p` occurs in `s` starting at index `i`. */
  predicate OccursAt(s: string, p: string, i: int) {
    0 <= i && i + |p| <= |s| && s[i..i + |p|] == p
  }

  /** `s` contains `p` (written `s.indexOf(p) !== -1` in the source). */
  predicate Contains(s: string, p: string) {
    exists i :: 0 <= i <= |s| && OccursAt(s, p, i)
  }

  function IndexFrom(s: string, p: string, from: nat): (r: int)
    requires from <= |s|
    decreases |s| - from
    ensures r == -1 || (from <= r && OccursAt(s, p, r))
    ensures forall j :: from <= j && (r == -1 || j < r) ==> !OccursAt(s, p, j)
  {
    if OccursAt(s, p, from) then from
    else if from == |s| then -1
    else IndexFrom(s, p, from + 1)
  }

  /** `s.indexOf(p)`: the first index where `p` occurs, or -1 when it does not occur. */
  function IndexOf(s: string, p: string): (r: int)
    ensures r == -1 <==> !Contains(s, p)
    ensures r != -1 ==> OccursAt(s, p, r) && forall j :: 0 <= j < r ==> !OccursAt(s, p, j)
  {
    IndexFrom(s, p, 0)
  }

  /** `indexOf` finds an occurrence with none before it. */
  lemma FirstOccurrence(s: string, p: string, i: nat)
    requires OccursAt(s, p, i) && forall j :: 0 <= j < i ==> !OccursAt(s, p, j)
    ensures IndexOf(s, p) == i
  {
    var k := IndexOf(s, p);
    assert Contains(s, p);
    assert k != -1;
    assert !(k < i);
  }

  /** `s.split(sep)` for a non-empty string separator: the pieces between the leftmost non-overlapping occurrences. */
  function Split(s: string, sep: string): (r: seq<string>)
    requires sep != []
    decreases |s|
    ensures |r| >= 1
    ensures forall k :: 0 <= k < |r| ==> !Contains(r[k], sep)
  {
    var i := IndexOf(s, sep);
    if i == -1 then [s]
    else
      PrefixBeforeFirst(s, sep, i);
      [s[..i]] + Split(s[i + |sep|..], sep)
  }

  /** The text before the first occurrence of `p` does not contain `p`. */
  lemma PrefixBeforeFirst(s: string, p: string, i: int)
    requires p != [] && 0 <= i <= |s|
    requires forall j :: 0 <= j < i ==> !OccursAt(s, p, j)
    ensures !Contains(s[..i], p)
  {
    forall j | 0 <= j <= i && OccursAt(s[..i], p, j) ensures false {
      assert s[..i][j..j + |p|] == s[j..j + |p|];
      assert OccursAt(s, p, j);
    }
  }

  /** `parts.join(sep)`: the first part comes first, and no parts give the empty text. */
  function Join(parts: seq<string>, sep: string): (r: string)
  {
    if parts == [] then []
    else if |parts| == 1 then parts[0]
    else parts[0] + sep + Join(parts[1..], sep)
  }

  /** Joining the pieces of a split with the same separator gives back the original text. */
  lemma {:induction false} JoinSplit(s: string, sep: string)
    requires sep != []
    ensures Join(Split(s, sep), sep) == s
    decreases |s|
  {
    var i := IndexOf(s, sep);
    if i != -1 {
      var rest := s[i + |sep|..];
      JoinSplit(rest, sep);
      var parts := Split(rest, sep);
      JoinCons(s[..i], parts, sep);
      Around(s, i, i + |sep|);
      calc {
        Join(Split(s, sep), sep);
        Join([s[..i]] + parts, sep);
        s[..i] + sep + Join(parts, sep);
        s[..i] + s[i..i + |sep|] + rest;
      }
    } else {
      assert Split(s, sep) == [s];
    }
  }

  lemma Around(s: string, i: nat, j: nat)
    requires i <= j <= |s|
    ensures s == s[..i] + s[i..j] + s[j..]
  {
  }

  lemma JoinCons(a: string, parts: seq<string>, sep: string)
    requires parts != []
    ensures Join([a] + parts, sep) == a + sep + Join(parts, sep)
  {
    assert ([a] + parts)[1..] == parts;
  }

  /** When no part contains the first character of the separator, splitting undoes joining. */
  lemma {:induction false} SplitJoin(parts: seq<string>, sep: string)
    requires parts != [] && sep != []
    requires forall k :: 0 <= k < |parts| ==> sep[0] !in parts[k]
    ensures Split(Join(parts, sep), sep) == parts
  {
    var s := Join(parts, sep);
    if |parts| == 1 {
      forall j | 0 <= j <= |s| ensures !OccursAt(s, sep, j) {
        if j + |sep| <= |s| {
          assert s[j..j + |sep|][0] == s[j];
        }
      }
    } else {
      var rest := Join(parts[1..], sep);
      var n := |parts[0]|;
      assert s == parts[0] + sep + rest;
      assert s[n..n + |sep|] == sep;
      assert OccursAt(s, sep, n);
      forall j | 0 <= j < n ensures !OccursAt(s, sep, j) {
        assert s[j] == parts[0][j];
        if j + |sep| <= |s| {
          assert s[j..j + |sep|][0] == s[j];
        }
      }
      assert IndexOf(s, sep) == n;
      assert s[..n] == parts[0];
      assert s[n + |sep|..] == rest;
      SplitJoin(parts[1..], sep);
    }
  }

  /** A text free of line terminators does not contain a separator that holds one. */
  lemma NoLineTerminatorNoSplit(s: string, sep: string)
    requires sep != [] && NoLineTerminator(s)
    requires exists k :: 0 <= k < |sep| && IsLineTerminator(sep[k])
    ensures Split(s, sep) == [s]
  {
  }
}

=== FILE: json.dfy ===
/**
 * `JSON.stringify` applied to a string: the string literal of section 7 of
 * RFC 8259, written the way ECMAScript's QuoteJSONString writes it, and a
 * reader for such literals that accepts every escape the RFC allows.
 */
module Json {
  import opened Wrappers

  /** A lower-case hexadecimal digit. */
  function HexDigit(d: nat): (c: char)
    requires d < 16
    ensures ('0' <= c <= '9') || ('a' <= c <= 'f')
  {
    if d < 10 then ('0' as int + d) as char else ('a' as int + d - 10) as char
  }

  /** The value of a hexadecimal digit of either case. */
  function HexValue(c: char): (r: Option<nat>)
    ensures r.Some? ==> r.value < 16
  {
    if '0' <= c <= '9' then Some(c as int - '0' as int)
    else if 'a' <= c <= 'f' then Some(c as int - 'a' as int + 10)
    else if 'A' <= c <= 'F' then Some(c as int - 'A' as int + 10)
    else None
  }

  lemma HexDigitValue(d: nat)
    requires d < 16
    ensures HexValue(HexDigit(d)) == Some(d)
  {
  }

  /** How QuoteJSONString writes one character. */
  function QuoteChar(c: char): (r: string)
    ensures r != [] && r[0] != '"'
  {
    if c == '"' then "\\\""
    else if c == '\\' then "\\\\"
    else if c == '\U{8}' then "\\b"
    else if c == '\U{C}' then "\\f"
    else if c == '\n' then "\\n"
    else if c == '\r' then "\\r"
    else if c == '\t' then "\\t"
    else if c < ' ' then "\\u00" + [HexDigit(c as int / 16), HexDigit(c as int % 16)]
    else [c]
  }

  /** The characters between the quotes. */
  function Escape(s: string): string {
    if s == [] then [] else QuoteChar(s[0]) + Escape(s[1..])
  }

  /** `JSON.stringify(s)` for a string `s`. */
  function Quote(s: string): (r: string)
    ensures |r| >= 2 && r[0] == '"' && r[|r| - 1] == '"'
    ensures DecodeString(r) == Some((s, ""))
  {
    var r := "\"" + Escape(s) + "\"";
    assert r[1..] == Escape(s) + "\"" + "";
    EscapeDecodes(s, "");
    r
  }

  /** The character an escape sequence at the start of `s` stands for, and its length. */
  function DecodeEscape(s: string): (r: Option<(char, nat)>)
    requires s != [] && s[0] == '\\'
    ensures r.Some? ==> 2 <= r.value.1 <= |s|
  {
    if |s| < 2 then None
    else if s[1] == '"' then Some(('"', 2))
    else if s[1] == '\\' then Some(('\\', 2))
    else if s[1] == '/' then Some(('/', 2))
    else if s[1] == 'b' then Some(('\U{8}', 2))
    else if s[1] == 'f' then Some(('\U{C}', 2))
    else if s[1] == 'n' then Some(('\n', 2))
    else if s[1] == 'r' then Some(('\r', 2))
    else if s[1] == 't' then Some(('\t', 2))
    else if s[1] == 'u' && |s| >= 6 then
      match (HexValue(s[2]), HexValue(s[3]), HexValue(s[4]), HexValue(s[5]))
      case (Some(a), Some(b), Some(c), Some(d)) =>
        var code := ((a * 16 + b) * 16 + c) * 16 + d;
        if 0xD800 <= code < 0xE000 then None else Some((code as char, 6))
      case _ => None
    else None
  }

  function Prepend(c: char, r: Option<(string, string)>): Option<(string, string)> {
    match r
    case None => None
    case Some((v, rest)) => Some(([c] + v, rest))
  }

  /**
   * Reads the characters of a string literal up to and including its
   * closing quote; yields them decoded, with the text that follows.
   */
  function DecodeBody(s: string): Option<(string, string)>
    decreases |s|
  {
    if s == [] then None
    else if s[0] == '"' then Some(([], s[1..]))
    else if s[0] == '\\' then
      match DecodeEscape(s)
      case None => None
      case Some((c, n)) => Prepend(c, DecodeBody(s[n..]))
    else if s[0] < ' ' then None
    else Prepend(s[0], DecodeBody(s[1..]))
  }

  /** Reads a string literal at the start of `s`; yields its value and the text after it. */
  function DecodeString(s: string): Option<(string, string)> {
    if s != [] && s[0] == '"' then DecodeBody(s[1..]) else None
  }

  /** One written character reads back as itself, whatever follows it. */
  lemma QuoteCharDecodes(c: char, t: string)
    ensures DecodeBody(QuoteChar(c) + t) == Prepend(c, DecodeBody(t))
  {
    var s := QuoteChar(c) + t;
    if c == '"' || c == '\\' || c == '\U{8}' || c == '\U{C}' || c == '\n' || c == '\r' || c == '\t' {
      assert s[..2] == QuoteChar(c) && s[2..] == t;
    } else if c < ' ' {
      var hi, lo := c as int / 16, c as int % 16;
      HexDigitValue(hi);
      HexDigitValue(lo);
      HexDigitValue(0);
      assert s[..6] == QuoteChar(c) && s[6..] == t;
      assert DecodeEscape(s) == Some((c, 6));
    } else {
      assert s[1..] == t;
    }
  }

  /** The escaped characters followed by the closing quote read back as the original string. */
  lemma {:induction false} EscapeDecodes(v: string, rest: string)
    ensures DecodeBody(Escape(v) + "\"" + rest) == Some((v, rest))
  {
    if v == [] {
      assert Escape(v) + "\"" + rest == "\"" + rest;
    } else {
      var tail := Escape(v[1..]) + "\"" + rest;
      assert Escape(v) + "\"" + rest == QuoteChar(v[0]) + tail;
      QuoteCharDecodes(v[0], tail);
      EscapeDecodes(v[1..], rest);
      assert [v[0]] + v[1..] == v;
    }
  }

  /** Reading back what `JSON.stringify` wrote gives the string and leaves what follows untouched. */
  lemma QuoteDecodes(v: string, rest: string)
    ensures DecodeString(Quote(v) + rest) == Some((v, rest))
  {
    assert (Quote(v) + rest)[1..] == Escape(v) + "\"" + rest;
    EscapeDecodes(v, rest);
  }
}

=== FILE: list_data.dfy ===
/**
 * `parse_listdata` and the running-flag merge of `list`: the text of
 * `VBoxManage list vms` / `list runningvms` becomes a dictionary from
 * uuid to `{name}`, and every VM of the full listing is then marked as
 * running or not.
 */
module ListData {
  import opened Wrappers
  import opened JsText

  /** The two groups of one listing line `"name" {uuid}`. */
  datatype ListLine = ListLine(name: string, uuid: string)

  /** A dictionary entry: `{name}` after parsing, `{name, running}` after `list` merges. */
  datatype Vm = Vm(name: string, running: Option<bool>)

  /** The literal text between the two groups. */
  const Marker: string := "\" {"

  function FormatListLine(name: string, uuid: string): string {
    "\"" + name + Marker + uuid + "}"
  }

  /**
   * `line` matches `^"(.+)" \{(.+)\}$` with `name` and `uuid` as its groups:
   * both non-empty, and no line terminator anywhere, since `.` matches none.
   */
  predicate IsListLineSplit(line: string, name: string, uuid: string) {
    name != [] && uuid != [] && NoLineTerminator(line) && line == FormatListLine(name, uuid)
  }

  /** Where a split puts the pieces of the line. */
  lemma SplitPosition(line: string, name: string, uuid: string)
    requires IsListLineSplit(line, name, uuid)
    ensures |line| == |name| + |uuid| + 5 && 7 <= |line|
    ensures line[0] == '"' && line[|line| - 1] == '}'
    ensures OccursAt(line, Marker, |name| + 1) && 2 <= |name| + 1 <= |line| - 5
    ensures line[1..|name| + 1] == name && line[|name| + 4..|line| - 1] == uuid
  {
    assert line[1..|name| + 1] == name;
    assert line[|name| + 1..|name| + 4] == Marker;
    assert line[|name| + 4..|line| - 1] == uuid;
  }

  /** The largest index in [2, hi] where `" {` starts. */
  function LastMarker(line: string, hi: int): (r: Option<nat>)
    requires hi + 3 <= |line|
    decreases hi
    ensures r.Some? ==> 2 <= r.value <= hi && OccursAt(line, Marker, r.value)
    ensures forall j :: (if r.Some? then r.value else 1) < j <= hi ==> !OccursAt(line, Marker, j)
  {
    if hi < 2 then None
    else if OccursAt(line, Marker, hi) then Some(hi)
    else LastMarker(line, hi - 1)
  }

  /**
   * The regular expression of `parse_listdata`. The first group is greedy,
   * so the split is at the last `" {` that leaves a non-empty second group.
   */
  function MatchListLine(line: string): (r: Option<ListLine>)
    ensures r.Some? ==> IsListLineSplit(line, r.value.name, r.value.uuid)
    ensures r.Some? ==> forall n, u :: IsListLineSplit(line, n, u) ==> |n| <= |r.value.name|
    ensures r.None? ==> forall n, u :: !IsListLineSplit(line, n, u)
  {
    if |line| < 7 || line[0] != '"' || line[|line| - 1] != '}' || !NoLineTerminator(line) then
      NoSplitWithoutMarker(line);
      None
    else
      match LastMarker(line, |line| - 5)
      case None =>
        NoSplitWithoutMarker(line);
        None
      case Some(i) =>
        SplitAtLastMarker(line, i);
        Some(ListLine(line[1..i], line[i + 3..|line| - 1]))
  }

  /** A line with the wrong ends, or with no marker where a split would put one, has no split. */
  lemma NoSplitWithoutMarker(line: string)
    requires |line| < 7 || line[0] != '"' || line[|line| - 1] != '}' || !NoLineTerminator(line)
      || LastMarker(line, |line| - 5).None?
    ensures forall n, u :: !IsListLineSplit(line, n, u)
  {
    forall n, u | IsListLineSplit(line, n, u) ensures false {
      SplitPosition(line, n, u);
    }
  }

  lemma MarkerSplits(line: string, i: nat)
    requires 7 <= |line| && line[0] == '"' && line[|line| - 1] == '}' && NoLineTerminator(line)
    requires 2 <= i <= |line| - 5 && OccursAt(line, Marker, i)
    ensures IsListLineSplit(line, line[1..i], line[i + 3..|line| - 1])
  {
    assert line == line[..1] + line[1..i] + line[i..i + 3] + line[i + 3..|line| - 1] + line[|line| - 1..];
  }

  /** Splitting at the last marker gives a split, and every split has a name no longer than this one. */
  lemma SplitAtLastMarker(line: string, i: nat)
    requires 7 <= |line| && line[0] == '"' && line[|line| - 1] == '}' && NoLineTerminator(line)
    requires LastMarker(line, |line| - 5) == Some(i)
    ensures IsListLineSplit(line, line[1..i], line[i + 3..|line| - 1])
    ensures forall n, u :: IsListLineSplit(line, n, u) ==> |n| <= i - 1
  {
    MarkerSplits(line, i);
    forall n, u | IsListLineSplit(line, n, u) ensures |n| <= i - 1 {
      SplitPosition(line, n, u);
    }
  }

  /**
   * Every line `VBoxManage` prints for a VM reads back as that VM: the name may
   * hold anything but a line terminator (even `" {`), the uuid anything but
   * a line terminator or a double quote.
   */
  lemma MatchFormattedLine(name: string, uuid: string)
    requires name != [] && uuid != []
    requires NoLineTerminator(name) && NoLineTerminator(uuid) && '"' !in uuid
    ensures MatchListLine(FormatListLine(name, uuid)) == Some(ListLine(name, uuid))
  {
    var line := FormatListLine(name, uuid);
    FormattedLineSplits(name, uuid);
    var r := MatchListLine(line).value;
    SplitPosition(line, r.name, r.uuid);
    SplitPosition(line, name, uuid);
    NoMarkerInUuid(line, |name| + 1, uuid);
  }

  lemma FormattedLineSplits(name: string, uuid: string)
    requires name != [] && uuid != [] && NoLineTerminator(name) && NoLineTerminator(uuid)
    ensures IsListLineSplit(FormatListLine(name, uuid), name, uuid)
  {
    NoLineTerminatorConcat("\"", name);
    NoLineTerminatorConcat("\"" + name, Marker);
    NoLineTerminatorConcat("\"" + name + Marker, uuid);
    NoLineTerminatorConcat("\"" + name + Marker + uuid, "}");
  }

  /** No marker starts after the one at `q` when the braced text holds no double quote. */
  lemma NoMarkerInUuid(line: string, q: nat, uuid: string)
    requires q + 5 <= |line| && line[q..q + 3] == Marker && line[q + 3..|line| - 1] == uuid && '"' !in uuid
    ensures forall j :: q < j <= |line| - 5 ==> !OccursAt(line, Marker, j)
  {
    forall j | q < j <= |line| - 5 ensures !OccursAt(line, Marker, j) {
      assert line[j..j + 3][0] == line[j];
      if j == q + 1 {
        assert line[j] == line[q..q + 3][1] == ' ';
      } else if j == q + 2 {
        assert line[j] == line[q..q + 3][2] == '{';
      } else {
        assert line[j] == uuid[j - q - 3];
      }
    }
  }

  /** `raw_data.split(/\r?\n/)`: split at "\n" and drop the "\r" that stood before it. */
  function SplitLines(raw: string): (r: seq<string>)
    ensures |r| == |Split(raw, "\n")|
    ensures forall k :: 0 <= k < |r| ==> !Contains(r[k], "\n")
  {
    var pieces := Split(raw, "\n");
    seq(|pieces|, k requires 0 <= k < |pieces| => LineOfPiece(pieces[k], k < |pieces| - 1))
  }

  /** A piece that a "\n" followed loses the "\r" that ended it. */
  function LineOfPiece(piece: string, beforeNewline: bool): (r: string)
    requires !Contains(piece, "\n")
    ensures !Contains(r, "\n")
  {
    if beforeNewline && piece != [] && piece[|piece| - 1] == '\r' then
      PrefixNoContains(piece, |piece| - 1, "\n");
      piece[..|piece| - 1]
    else piece
  }

  lemma PrefixNoContains(s: string, n: nat, p: string)
    requires n <= |s| && !Contains(s, p)
    ensures !Contains(s[..n], p)
  {
    forall j | 0 <= j <= n && OccursAt(s[..n], p, j) ensures OccursAt(s, p, j) {
      assert s[..n][j..j + |p|] == s[j..j + |p|];
    }
  }

  /** `line` is a listing line for the VM with uuid `u`. */
  predicate ListsUuid(line: string, u: string) {
    MatchListLine(line).Some? && MatchListLine(line).value.uuid == u
  }

  /** Lines joined with "\r\n" come back as they were: each "\r" before a "\n" is dropped. */
  lemma SplitLinesOfCrLf(lines: seq<string>)
    requires lines != []
    requires forall k :: 0 <= k < |lines| ==> '\n' !in lines[k]
    ensures SplitLines(Join(lines, "\r\n")) == lines
  {
    var pieces := CrTerminated(lines);
    JoinCrLf(lines);
    forall k | 0 <= k < |pieces| ensures "\n"[0] !in pieces[k] {
    }
    SplitJoin(pieces, "\n");
    forall k | 0 <= k < |pieces| ensures !Contains(pieces[k], "\n") && LineOfPiece(pieces[k], k < |pieces| - 1) == lines[k] {
      if k < |lines| - 1 {
        StripCr(lines[k]);
      }
    }
    LinesOfPieces(Join(lines, "\r\n"), pieces, lines);
  }

  /** A line that had "\r" put after it loses it again. */
  lemma StripCr(line: string)
    requires '\n' !in line
    ensures !Contains(line + "\r", "\n")
    ensures LineOfPiece(line + "\r", true) == line
  {
    var s := line + "\r";
    forall j | 0 <= j <= |s| ensures !OccursAt(s, "\n", j) {
      if j < |s| {
        assert s[j..j + 1][0] == s[j];
      }
    }
    assert (line + "\r")[..|line|] == line;
  }

  /** `SplitLines` read off the pieces of the split, one line per piece. */
  lemma LinesOfPieces(raw: string, pieces: seq<string>, lines: seq<string>)
    requires Split(raw, "\n") == pieces && |lines| == |pieces|
    requires forall k :: 0 <= k < |pieces| ==> !Contains(pieces[k], "\n") && LineOfPiece(pieces[k], k < |pieces| - 1) == lines[k]
    ensures SplitLines(raw) == lines
  {
  }

  /**
   * Lines joined with "\n" come back as they were when none but the last
   * ends in "\r" (such an "\r" would be taken for half of a line break).
   */
  lemma SplitLinesOfLf(lines: seq<string>)
    requires lines != []
    requires forall k :: 0 <= k < |lines| ==> '\n' !in lines[k]
    requires forall k :: 0 <= k < |lines| - 1 ==> lines[k] == [] || lines[k][|lines[k]| - 1] != '\r'
    ensures SplitLines(Join(lines, "\n")) == lines
  {
    forall k | 0 <= k < |lines| ensures "\n"[0] !in lines[k] {
    }
    SplitJoin(lines, "\n");
  }

  /** The pieces a "\r\n"-joined text splits into at "\n": every line but the last keeps its "\r". */
  function CrTerminated(lines: seq<string>): (r: seq<string>)
    ensures |r| == |lines|
  {
    seq(|lines|, k requires 0 <= k < |lines| => if k < |lines| - 1 then lines[k] + "\r" else lines[k])
  }

  lemma {:induction false} JoinCrLf(lines: seq<string>)
    ensures Join(lines, "\r\n") == Join(CrTerminated(lines), "\n")
    decreases |lines|
  {
    if |lines| <= 1 {
      assert CrTerminated(lines) == lines;
    } else {
      var tail := lines[1..];
      JoinCrLf(tail);
      assert CrTerminated(lines) == [lines[0] + "\r"] + CrTerminated(tail);
      JoinCons(lines[0] + "\r", CrTerminated(tail), "\n");
      assert "\r\n" == "\r" + "\n";
    }
  }

  /** Some line lists the uuid `u`. */
  predicate AnyListsUuid(lines: seq<string>, u: string) {
    exists i :: 0 <= i < |lines| && ListsUuid(lines[i], u)
  }

  /** The dictionary `parse_listdata` has built after the given lines. */
  function ListDataOf(lines: seq<string>): map<string, Vm> {
    if lines == [] then map[]
    else
      var m := ListDataOf(lines[..|lines| - 1]);
      match MatchListLine(lines[|lines| - 1])
      case None => m
      case Some(e) => m[e.uuid := Vm(e.name, None)]
  }

  /** A uuid is a key exactly when some line lists it. */
  lemma {:induction false} ListDataKeys(lines: seq<string>, u: string)
    ensures u in ListDataOf(lines) <==> AnyListsUuid(lines, u)
  {
    if lines != [] {
      var init, last := lines[..|lines| - 1], lines[|lines| - 1];
      ListDataKeys(init, u);
      KeysSnoc(lines, u);
      assert lines == init + [last];
      AnyListsUuidSnoc(init, last, u);
    }
  }

  /** The last line adds its uuid to the keys, if it lists one. */
  lemma KeysSnoc(lines: seq<string>, u: string)
    requires lines != []
    ensures u in ListDataOf(lines) <==> u in ListDataOf(lines[..|lines| - 1]) || ListsUuid(lines[|lines| - 1], u)
  {
  }

  lemma AnyListsUuidSnoc(init: seq<string>, last: string, u: string)
    ensures AnyListsUuid(init + [last], u) <==> AnyListsUuid(init, u) || ListsUuid(last, u)
  {
    var lines := init + [last];
    if AnyListsUuid(init, u) {
      var i :| 0 <= i < |init| && ListsUuid(init[i], u);
      assert lines[i] == init[i];
    }
    if AnyListsUuid(lines, u) {
      var i :| 0 <= i < |lines| && ListsUuid(lines[i], u);
      if i < |init| {
        assert init[i] == lines[i];
      }
    }
    assert lines[|init|] == last;
  }

  /** The entry of a uuid holds the name from the last line that lists it; later lines overwrite earlier ones. */
  lemma {:induction false} ListDataLastWins(lines: seq<string>, i: nat)
    requires i < |lines| && MatchListLine(lines[i]).Some?
    requires forall j :: i < j < |lines| ==> !ListsUuid(lines[j], MatchListLine(lines[i]).value.uuid)
    ensures var e := MatchListLine(lines[i]).value;
      e.uuid in ListDataOf(lines) && ListDataOf(lines)[e.uuid] == Vm(e.name, None)
  {
    if i < |lines| - 1 {
      var init := lines[..|lines| - 1];
      assert init[i] == lines[i];
      forall j | i < j < |init| ensures !ListsUuid(init[j], MatchListLine(init[i]).value.uuid) {
        assert init[j] == lines[j];
      }
      ListDataLastWins(init, i);
    }
  }

  /** `parse_listdata`: an index loop over the lines that fills the dictionary. */
  method ParseListData(raw: string) returns (data: map<string, Vm>)
    ensures data == ListDataOf(SplitLines(raw))
    ensures forall u :: u in data ==> data[u].running == None
  {
    var lines := SplitLines(raw);
    data := map[];
    var i := 0;
    while i < |lines|
      invariant 0 <= i <= |lines|
      invariant data == ListDataOf(lines[..i])
      invariant forall u :: u in data ==> data[u].running == None
    {
      var line := lines[i];
      assert lines[..i + 1][..i] == lines[..i];
      if line != "" {
        match MatchListLine(line)
        case Some(e) =>
          data := data[e.uuid := Vm(e.name, None)];
        case None =>
      }
      i := i + 1;
    }
    assert lines[..|lines|] == lines;
  }

  /**
   * The merge loop of `list`: every VM of the full listing gets `running`,
   * true exactly when the running listing has its uuid.
   */
  method MarkRunning(all: map<string, Vm>, runningVms: map<string, Vm>) returns (r: map<string, Vm>)
    ensures r.Keys == all.Keys
    ensures forall u :: u in r ==> r[u].name == all[u].name
    ensures forall u :: u in r ==> r[u].running == Some(u in runningVms)
  {
    r := all;
    var keys := all.Keys;
    while keys != {}
      invariant keys <= all.Keys && r.Keys == all.Keys
      invariant forall u :: u in r ==> r[u].name == all[u].name
      invariant forall u :: u in r && u !in keys ==> r[u].running == Some(u in runningVms)
      decreases keys
    {
      var key :| key in keys;
      if key in runningVms {
        r := r[key := r[key].(running := Some(true))];
      } else {
        r := r[key := r[key].(running := Some(false))];
      }
      keys := keys - {key};
    }
  }

  /** `list`: both listings parsed, the full one marked with the running one. */
  method List(runningStdout: string, fullStdout: string) returns (vms: map<string, Vm>)
    ensures vms.Keys == ListDataOf(SplitLines(fullStdout)).Keys
    ensures forall u :: u in vms ==> vms[u].name == ListDataOf(SplitLines(fullStdout))[u].name
    ensures forall u :: u in vms ==> vms[u].running == Some(AnyListsUuid(SplitLines(runningStdout), u))
  {
    var runningVms := ParseListData(runningStdout);
    var all := ParseListData(fullStdout);
    vms := MarkRunning(all, runningVms);
    forall u | u in vms ensures vms[u].running == Some(AnyListsUuid(SplitLines(runningStdout), u)) {
      ListDataKeys(SplitLines(runningStdout), u);
    }
  }
}

=== FILE: modify.dfy ===
/**
 * `modify`: the argument list built from a VM name and a property object,
 * and the `modifyvm` command that quotes and joins it.
 */
module Modify {
  import opened Wrappers
  import opened JsText

  /**
   * The value of one own property: text (what `toString` gives), an array
   * whose elements are pushed one by one, or `null`/`undefined`.
   */
  datatype PropValue = Text(text: string) | Items(items: seq<string>) | Missing

  /** A property as the `for...in` loop meets it. */
  datatype Property = Property(name: string, value: PropValue)

  /** `value.toString()` on `null` or `undefined` throws a TypeError; the promise rejects with it. */
  datatype ModifyError = MissingValue(property: string)

  /** The arguments one property adds: `--<name>`, then the array's elements or the value's text. */
  function PropertyArgs(p: Property): (r: seq<string>)
    requires !p.value.Missing?
    ensures |r| >= 1 && r[0] == "--" + p.name
  {
    ["--" + p.name] + (if p.value.Items? then p.value.items else [p.value.text])
  }

  predicate NoneMissing(props: seq<Property>) {
    forall k :: 0 <= k < |props| ==> !props[k].value.Missing?
  }

  /** The arguments all properties add, in order. */
  function FlatArgs(props: seq<Property>): seq<string>
    requires NoneMissing(props)
  {
    if props == [] then [] else PropertyArgs(props[0]) + FlatArgs(props[1..])
  }

  /** The index of the first property whose value is `null` or `undefined`. */
  function FirstMissing(props: seq<Property>): (r: nat)
    ensures r <= |props| && NoneMissing(props[..r])
    ensures r < |props| ==> props[r].value.Missing?
  {
    if props == [] then 0
    else if props[0].value.Missing? then 0
    else
      var r := 1 + FirstMissing(props[1..]);
      assert forall k :: 1 <= k < r ==> props[..r][k] == props[1..][..r - 1][k - 1];
      r
  }

  lemma {:induction false} FlatArgsSnoc(props: seq<Property>, p: Property)
    requires NoneMissing(props) && !p.value.Missing?
    ensures NoneMissing(props + [p])
    ensures FlatArgs(props + [p]) == FlatArgs(props) + PropertyArgs(p)
  {
    forall k | 0 <= k < |props + [p]| ensures !(props + [p])[k].value.Missing? {
      if k < |props| {
        assert (props + [p])[k] == props[k];
      }
    }
    if props == [] {
      assert [] + [p] == [p];
      assert [p][1..] == [];
    } else {
      var rest := props[1..];
      assert (props + [p])[0] == props[0];
      assert (props + [p])[1..] == rest + [p];
      assert NoneMissing(rest) by {
        forall k | 0 <= k < |rest| ensures !rest[k].value.Missing? {
          assert rest[k] == props[k + 1];
        }
      }
      FlatArgsSnoc(rest, p);
    }
  }

  /**
   * The loop of `modify`: `args` starts as `[vname]` and each own property
   * pushes its arguments. The first property without a value stops it with
   * an error.
   */
  method ModifyArgs(vname: string, props: seq<Property>) returns (r: Result<seq<string>, ModifyError>)
    ensures FirstMissing(props) < |props| ==> r == Err(MissingValue(props[FirstMissing(props)].name))
    ensures FirstMissing(props) == |props| ==> NoneMissing(props) && r == Ok([vname] + FlatArgs(props))
  {
    var args := [vname];
    var i := 0;
    while i < |props|
      invariant 0 <= i <= |props| && NoneMissing(props[..i])
      invariant args == [vname] + FlatArgs(props[..i])
      invariant FirstMissing(props) >= i
    {
      var p := props[i];
      MissingAt(props, i);
      match p.value {
        case Missing =>
          return Err(MissingValue(p.name));
        case Items(items) =>
          args := args + ["--" + p.name];
          args := args + items;
        case Text(text) =>
          args := args + ["--" + p.name];
          args := args + [text];
      }
      FlatArgsSnoc(props[..i], p);
      assert props[..i + 1] == props[..i] + [p];
      i := i + 1;
    }
    assert props[..i] == props;
    r := Ok(args);
  }

  /** Before the first property without a value, every value is there. */
  lemma MissingAt(props: seq<Property>, i: nat)
    requires i < |props| && NoneMissing(props[..i])
    ensures FirstMissing(props) == i <==> props[i].value.Missing?
    ensures FirstMissing(props) >= i
  {
    FirstMissingAfter(props, i);
  }

  lemma {:induction false} FirstMissingAfter(props: seq<Property>, i: nat)
    requires i <= |props| && NoneMissing(props[..i])
    ensures FirstMissing(props) >= i
    ensures i < |props| ==> (FirstMissing(props) == i <==> props[i].value.Missing?)
  {
    if i > 0 {
      assert props[..i][0] == props[0];
      assert props[1..][..i - 1] == props[..i][1..];
      FirstMissingAfter(props[1..], i - 1);
    }
  }

  /** `'"' + arg + '"'` for every argument. */
  function QuoteAll(args: seq<string>): (r: seq<string>)
    ensures |r| == |args| && forall k :: 0 <= k < |args| ==> r[k] == "\"" + args[k] + "\""
  {
    seq(|args|, k requires 0 <= k < |args| => "\"" + args[k] + "\"")
  }

  /**
   * The command `modify` passes on: the quoted arguments joined by single
   * spaces after `modifyvm `, which is one quote, the arguments joined by
   * `" "`, and one quote.
   */
  function ModifyCommand(args: seq<string>): (r: string)
    ensures args == [] ==> r == "modifyvm "
    ensures args != [] ==> r == "modifyvm \"" + Join(args, "\" \"") + "\""
  {
    var r := "modifyvm " + Join(QuoteAll(args), " ");
    if args == [] then r
    else
      JoinQuoted(args);
      r
  }

  /** Quoting each argument and joining with spaces is one quote, the arguments joined by `" "`, and one quote. */
  lemma {:induction false} JoinQuoted(args: seq<string>)
    requires args != []
    ensures Join(QuoteAll(args), " ") == "\"" + Join(args, "\" \"") + "\""
  {
    if |args| > 1 {
      JoinQuoted(args[1..]);
      assert QuoteAll(args)[1..] == QuoteAll(args[1..]);
    }
  }

  /** Reads a `modifyvm` command back into its arguments. */
  function ParseModifyCommand(cmd: string): Option<seq<string>> {
    if |cmd| >= 11 && StartsWith(cmd, "modifyvm \"") && cmd[|cmd| - 1] == '"' then
      Some(Split(cmd[10..|cmd| - 1], "\" \""))
    else None
  }

  /** When no argument holds a double quote, the command reads back as the arguments. */
  lemma ModifyCommandParses(args: seq<string>)
    requires args != [] && forall k :: 0 <= k < |args| ==> '"' !in args[k]
    ensures ParseModifyCommand(ModifyCommand(args)) == Some(args)
  {
    var inner := Join(args, "\" \"");
    var cmd := ModifyCommand(args);
    assert cmd == "modifyvm \"" + inner + "\"";
    assert cmd[10..|cmd| - 1] == inner;
    SplitJoin(args, "\" \"");
  }

  /**
   * Quotes inside an argument are not escaped: an argument holding `" "`
   * gives the same command as the two arguments around it.
   */
  lemma QuoteInArgument(init: seq<string>, a: string, b: string)
    requires init != []
    ensures ModifyCommand(init + [a + "\" \"" + b]) == ModifyCommand(init + [a, b])
  {
    var q := QuoteAll(init);
    QuoteAllSnoc(init, a + "\" \"" + b);
    QuoteAllSnoc(init, a);
    QuoteAllSnoc(init + [a], b);
    assert init + [a, b] == (init + [a]) + [b];
    var x, qa, qb := "\"" + a + "\" \"" + b + "\"", "\"" + a + "\"", "\"" + b + "\"";
    assert "\"" + (a + "\" \"" + b) + "\"" == x;
    assert QuoteAll(init + [a + "\" \"" + b]) == q + [x];
    assert QuoteAll(init + [a, b]) == q + [qa] + [qb];
    JoinSnoc(q, x, " ");
    JoinSnoc(q + [qa], qb, " ");
    JoinSnoc(q, qa, " ");
    calc {
      Join(q + [x], " ");
      Join(q, " ") + " " + x;
      { assert x == qa + " " + qb; }
      Join(q, " ") + " " + qa + " " + qb;
      Join(q + [qa], " ") + " " + qb;
      Join(q + [qa] + [qb], " ");
    }
  }

  lemma QuoteAllSnoc(args: seq<string>, x: string)
    ensures QuoteAll(args + [x]) == QuoteAll(args) + ["\"" + x + "\""]
  {
    var l, r := QuoteAll(args + [x]), QuoteAll(args) + ["\"" + x + "\""];
    forall k | 0 <= k < |l| ensures l[k] == r[k] {
      if k < |args| {
        assert (args + [x])[k] == args[k];
      }
    }
  }

  lemma {:induction false} JoinSnoc(parts: seq<string>, last: string, sep: string)
    requires parts != []
    ensures Join(parts + [last], sep) == Join(parts, sep) + sep + last
  {
    if |parts| == 1 {
      assert (parts + [last])[1..] == [last];
    } else {
      assert (parts + [last])[1..] == parts[1..] + [last];
      JoinSnoc(parts[1..], last, sep);
    }
  }

  /** `modify` up to the command it runs: the arguments, quoted and joined, or the error of the first missing value. */
  method ModifyCommandFor(vname: string, props: seq<Property>) returns (r: Result<string, ModifyError>)
    ensures FirstMissing(props) < |props| ==> r == Err(MissingValue(props[FirstMissing(props)].name))
    ensures FirstMissing(props) == |props| ==> NoneMissing(props) && r == Ok(ModifyCommand([vname] + FlatArgs(props)))
  {
    var args := ModifyArgs(vname, props);
    match args {
      case Err(e) =>
        r := Err(e);
      case Ok(a) =>
        r := Ok(ModifyCommand(a));
    }
  }
}

=== FILE: responses.dfy ===
/**
 * What the library reads out of VBoxManage's answers: the value of a guest
 * property or extra-data key, the guest's operating system, and whether a
 * finished command counts as a success.
 */
module Responses {
  import opened Wrappers
  import opened JsText

  /** What VBoxManage prints for a key that holds no value. */
  const NoValueSet: string := "No value set!"

  /**
   * `guestproperty.get` and `extradata.get`: the trimmed text after the
   * first colon (all of it when there is none); `No value set!` becomes
   * `undefined`.
   */
  function PropertyValue(stdout: string): (r: Option<string>)
    ensures r.Some? ==> IsTrimmed(r.value) && r.value != NoValueSet
  {
    var v := Trim(stdout[IndexOf(stdout, ":") + 1..]);
    if v == NoValueSet then None else Some(v)
  }

  /**
   * A line `Value: <v>` gives back `v`, whatever white space surrounds it,
   * even when `v` holds colons of its own; `Value: No value set!` gives none.
   */
  lemma PropertyValueOfLine(key: string, w1: string, v: string, w2: string)
    requires ':' !in key && AllTrimmable(w1) && AllTrimmable(w2) && IsTrimmed(v)
    ensures PropertyValue(key + ":" + w1 + v + w2) == if v == NoValueSet then None else Some(v)
  {
    var rest := w1 + v + w2;
    Regroup(key + ":", w1, v, w2);
    FirstColon(key, rest);
    PropertyValueAt(key + ":" + rest, |key|, rest);
    TrimAround(w1, v, w2);
  }

  lemma Regroup(a: string, b: string, c: string, d: string)
    ensures a + b + c + d == a + (b + c + d)
  {
  }

  /** When the first colon stands at `i`, the value is the trimmed text after it. */
  lemma PropertyValueAt(s: string, i: nat, rest: string)
    requires OccursAt(s, ":", i) && forall j :: 0 <= j < i ==> !OccursAt(s, ":", j)
    requires s[i + 1..] == rest
    ensures PropertyValue(s) == if Trim(rest) == NoValueSet then None else Some(Trim(rest))
  {
    FirstOccurrence(s, ":", i);
    var k := IndexOf(s, ":");
    assert s[k + 1..] == rest;
  }

  /** The first colon is the one after a key without colons. */
  lemma FirstColon(key: string, rest: string)
    requires ':' !in key
    ensures OccursAt(key + ":" + rest, ":", |key|)
    ensures forall j :: 0 <= j < |key| ==> !OccursAt(key + ":" + rest, ":", j)
    ensures (key + ":" + rest)[|key| + 1..] == rest
  {
    var s := key + ":" + rest;
    assert s[|key|..|key| + 1] == ":";
    assert OccursAt(s, ":", |key|);
    forall j | 0 <= j < |key| ensures !OccursAt(s, ":", j) {
      assert s[j..j + 1][0] == key[j];
    }
  }

  /** Without a colon the whole trimmed output is the value. */
  lemma PropertyValueWithoutColon(stdout: string)
    requires !Contains(stdout, ":")
    ensures PropertyValue(stdout) == if Trim(stdout) == NoValueSet then None else Some(Trim(stdout))
  {
    assert stdout[0..] == stdout;
  }

  /** The kinds of guest `guestproperty.os` tells apart. */
  datatype OsType = Windows | Mac | Linux

  const WindowsMarker: string := "ostype=\"Windows"
  const MacMarker: string := "ostype=\"MacOS"

  /**
   * `guestproperty.os`: the guest's kind, from `showvminfo -machinereadable`
   * output. Windows wins over Mac, and everything else is Linux.
   */
  function GuestOs(stdout: string): (r: OsType)
    ensures r == Windows <==> Contains(stdout, WindowsMarker)
    ensures r == Mac <==> !Contains(stdout, WindowsMarker) && Contains(stdout, MacMarker)
    ensures r == Linux <==> !Contains(stdout, WindowsMarker) && !Contains(stdout, MacMarker)
  {
    if IndexOf(stdout, WindowsMarker) != -1 then Windows
    else if IndexOf(stdout, MacMarker) != -1 then Mac
    else Linux
  }

  /** An `ostype` line naming a Windows release makes the guest Windows, wherever it stands. */
  lemma WindowsLine(before: string, name: string, after: string)
    requires StartsWith(name, "Windows")
    ensures GuestOs(before + "ostype=\"" + name + "\"" + after) == Windows
  {
    OstypeAt(before, name, "Windows", after);
    assert "ostype=\"" + "Windows" == WindowsMarker;
    assert OccursAt(before + "ostype=\"" + name + "\"" + after, WindowsMarker, |before|);
  }

  /** An `ostype` line naming a macOS release makes the guest Mac when nothing names Windows. */
  lemma MacLine(before: string, name: string, after: string)
    requires StartsWith(name, "MacOS")
    requires !Contains(before + "ostype=\"" + name + "\"" + after, WindowsMarker)
    ensures GuestOs(before + "ostype=\"" + name + "\"" + after) == Mac
  {
    OstypeAt(before, name, "MacOS", after);
    assert "ostype=\"" + "MacOS" == MacMarker;
    assert OccursAt(before + "ostype=\"" + name + "\"" + after, MacMarker, |before|);
  }

  /** `ostype="` followed by a name that starts with `kind` is found where the line starts. */
  lemma OstypeAt(before: string, name: string, kind: string, after: string)
    requires StartsWith(name, kind)
    ensures OccursAt(before + "ostype=\"" + name + "\"" + after, "ostype=\"" + kind, |before|)
  {
    var head := "ostype=\"";
    var s := before + head + name + "\"" + after;
    var m := head + kind;
    forall k | 0 <= k < |m| ensures s[|before| + k] == m[k] {
      if k < |head| {
        assert s[|before| + k] == head[k];
      } else {
        assert s[|before| + k] == name[k - |head|];
        assert name[..|kind|][k - |head|] == kind[k - |head|];
      }
    }
    assert s[|before|..|before| + |m|] == m;
  }

  /**
   * `command` as written: it rejects with the standard error text only when
   * exec reported no error, something was written to standard error, and the
   * command names both `pause` and `savestate`; otherwise it resolves with
   * the standard output, even when exec reported an error.
   */
  function CommandOutcome(cmd: string, err: Option<string>, stdout: string, stderr: string): (r: Result<string, string>)
    ensures r.Ok? ==> r.value == stdout
    ensures r.Err? ==> r.error == stderr
  {
    if err.None? && stderr != "" && IndexOf(cmd, "pause") != -1 && IndexOf(cmd, "savestate") != -1 then Err(stderr)
    else Ok(stdout)
  }

  lemma CommandOutcomeSpec(cmd: string, err: Option<string>, stdout: string, stderr: string)
    ensures CommandOutcome(cmd, err, stdout, stderr).Err? <==>
      err.None? && stderr != [] && Contains(cmd, "pause") && Contains(cmd, "savestate")
  {
  }

  /** An error from exec is dropped: the command still resolves with what it printed. */
  lemma ExecErrorResolves(cmd: string, message: string, stdout: string, stderr: string)
    ensures CommandOutcome(cmd, Some(message), stdout, stderr) == Ok(stdout)
  {
  }

  /**
   * `command` as its callers expect it: an error from exec rejects with
   * that error's message; without one, the rule above applies.
   */
  function CommandOutcomeIntended(cmd: string, err: Option<string>, stdout: string, stderr: string): (r: Result<string, string>)
    ensures r.Err? <==> err.Some? || (stderr != [] && Contains(cmd, "pause") && Contains(cmd, "savestate"))
    ensures err.Some? ==> r.Err? && r.error == err.value
    ensures err.None? && r.Err? ==> r.error == stderr
    ensures r.Ok? ==> r.value == stdout
  {
    if err.Some? then Err(err.value) else CommandOutcome(cmd, err, stdout, stderr)
  }

  /** The error `start` looks for in its handler reaches it only under the intended rule. */
  lemma InvalidStateReachesStart(cmd: string, message: string, stdout: string, stderr: string)
    requires Contains(message, "VBOX_E_INVALID_OBJECT_STATE")
    ensures CommandOutcomeIntended(cmd, Some(message), stdout, stderr).Err?
    ensures Contains(CommandOutcomeIntended(cmd, Some(message), stdout, stderr).error, "VBOX_E_INVALID_OBJECT_STATE")
    ensures CommandOutcome(cmd, Some(message), stdout, stderr).Ok?
  {
  }
}

=== FILE: scan_codes.dfy ===
/**
 * `keyboardputscancode`: each code is written in hexadecimal with
 * `code.toString(16)`, padded with a `0` when that gives a single digit,
 * and the tokens are joined by single spaces.
 */
module ScanCodes {
  import opened Wrappers
  import opened JsText
  import opened Json

  predicate IsLowerHex(c: char) {
    ('0' <= c <= '9') || ('a' <= c <= 'f')
  }

  predicate AllLowerHex(s: string) {
    forall k :: 0 <= k < |s| ==> IsLowerHex(s[k])
  }

  /** `n.toString(16)`: lower-case digits without leading zeros. */
  function Hex(n: nat): (r: string)
    ensures r != [] && AllLowerHex(r)
    ensures |r| == 1 <==> n < 16
    ensures n >= 256 ==> |r| >= 3
    ensures |r| > 1 ==> r[0] != '0'
    decreases n
  {
    if n < 16 then [HexDigit(n)]
    else
      var r := Hex(n / 16) + [HexDigit(n % 16)];
      assert r[..|r| - 1] == Hex(n / 16);
      r
  }

  /** The number a string of hexadecimal digits stands for. */
  function HexNumber(s: string): nat
    requires AllLowerHex(s)
  {
    if s == [] then 0
    else HexNumber(s[..|s| - 1]) * 16 + HexValue(s[|s| - 1]).value
  }

  lemma {:induction false} HexNumberOfHex(n: nat)
    ensures HexNumber(Hex(n)) == n
    decreases n
  {
    HexDigitValue(n % 16);
    if n >= 16 {
      HexNumberOfHex(n / 16);
      var r := Hex(n);
      assert r[..|r| - 1] == Hex(n / 16);
    }
  }

  /** A leading zero does not change the number. */
  lemma {:induction false} HexNumberLeadingZero(s: string)
    requires AllLowerHex(s)
    ensures AllLowerHex("0" + s) && HexNumber("0" + s) == HexNumber(s)
  {
    if s != [] {
      HexNumberLeadingZero(s[..|s| - 1]);
      assert ("0" + s)[..|"0" + s| - 1] == "0" + s[..|s| - 1];
    } else {
      assert ("0" + s)[..0] == [];
    }
  }

  /** `code.toString(16)` for an integer code: a minus sign, then the digits of its magnitude. */
  function CodeHex(code: int): string {
    if code < 0 then "-" + Hex(-code) else Hex(code)
  }

  /** The token of one code: `toString(16)`, with a `0` in front when that is a single character. */
  function CodeToken(code: int): (r: string)
    ensures |r| >= 2 && ' ' !in r
    ensures ParseToken(r) == Some(code)
  {
    var s := CodeHex(code);
    var t := if |s| == 1 then "0" + s else s;
    PaddedParses(code, s, t);
    t
  }

  /** The padded token holds no space and reads back as its code, negative codes included. */
  lemma PaddedParses(code: int, s: string, t: string)
    requires s == CodeHex(code) && t == (if |s| == 1 then "0" + s else s)
    ensures |t| >= 2 && ' ' !in t && ParseToken(t) == Some(code)
  {
    if code >= 0 {
      HexNumberOfHex(code);
      if code < 16 {
        HexNumberLeadingZero(Hex(code));
        assert AllLowerHex(t) by {
          forall k | 0 <= k < |t| ensures IsLowerHex(t[k]) {
            if k > 0 {
              assert t[k] == s[k - 1];
            }
          }
        }
      }
      DigitsParse(t);
    } else {
      HexNumberOfHex(-code);
      NegativeParse(Hex(-code));
    }
  }

  function Tokens(codes: seq<int>): (r: seq<string>)
    ensures |r| == |codes| && forall k :: 0 <= k < |codes| ==> r[k] == CodeToken(codes[k])
  {
    seq(|codes|, k requires 0 <= k < |codes| => CodeToken(codes[k]))
  }

  /**
   * The scan code string `keyboardputscancode` passes on: one token per
   * code, separated by single spaces. Splitting it at spaces gives the
   * tokens back, and reading them gives the codes back, with no code
   * truncated to two digits.
   */
  function ScanCodeString(codes: seq<int>): (r: string)
    ensures r == [] <==> codes == []
    ensures codes != [] ==> Split(r, " ") == Tokens(codes)
    ensures ParseScanCodes(r) == Some(codes)
  {
    JoinedTokensParse(codes);
    Join(Tokens(codes), " ")
  }

  /** The shape of one token: two lower-case digits at least, the padding zero only before a single digit. */
  lemma TokenShape(code: int)
    requires code >= 0
    ensures var t := CodeToken(code);
      && |t| >= 2 && AllLowerHex(t)
      && (t[0] == '0' <==> code < 16)
      && t == (if code < 16 then "0" else "") + Hex(code)
      && HexNumber(t) == code
      && (code >= 256 ==> |t| >= 3)
  {
    HexNumberOfHex(code);
    if code < 16 {
      HexNumberLeadingZero(Hex(code));
    }
  }

  /** Reads one token back. */
  function ParseToken(t: string): Option<int> {
    if t != [] && t[0] == '-' && |t| >= 2 && AllLowerHex(t[1..]) then Some(-(HexNumber(t[1..]) as int))
    else if t != [] && AllLowerHex(t) then Some(HexNumber(t))
    else None
  }

  function ParseTokens(ts: seq<string>): Option<seq<int>> {
    if ts == [] then Some([])
    else
      match (ParseToken(ts[0]), ParseTokens(ts[1..]))
      case (Some(c), Some(cs)) => Some([c] + cs)
      case _ => None
  }

  /** Reads a scan code string back into the codes; the empty string stands for no codes. */
  function ParseScanCodes(s: string): Option<seq<int>> {
    if s == "" then Some([]) else ParseTokens(Split(s, " "))
  }

  /** Digits alone read back as their number. */
  lemma DigitsParse(t: string)
    requires t != [] && AllLowerHex(t)
    ensures ' ' !in t && ParseToken(t) == Some(HexNumber(t))
  {
    assert IsLowerHex(t[0]);
    forall k | 0 <= k < |t| ensures t[k] != ' ' {
      assert IsLowerHex(t[k]);
    }
  }

  /** A minus sign and digits read back as the negated number. */
  lemma NegativeParse(h: string)
    requires h != [] && AllLowerHex(h)
    ensures ' ' !in "-" + h && ParseToken("-" + h) == Some(-(HexNumber(h) as int))
  {
    var t := "-" + h;
    assert t[1..] == h;
    forall k | 0 <= k < |t| ensures t[k] != ' ' {
      if k > 0 {
        assert t[k] == h[k - 1];
        assert IsLowerHex(h[k - 1]);
      }
    }
  }

  lemma {:induction false} ParseTokensOf(codes: seq<int>)
    ensures ParseTokens(Tokens(codes)) == Some(codes)
  {
    if codes != [] {
      var ts, c, cs := Tokens(codes), codes[0], codes[1..];
      TokensTail(codes);
      ParseTokensOf(cs);
      assert ParseToken(CodeToken(c)) == Some(c);
      ParseTokensCons(ts, c, cs);
      assert [c] + cs == codes;
    }
  }

  lemma TokensTail(codes: seq<int>)
    requires codes != []
    ensures Tokens(codes)[0] == CodeToken(codes[0]) && Tokens(codes)[1..] == Tokens(codes[1..])
  {
  }

  lemma ParseTokensCons(ts: seq<string>, c: int, cs: seq<int>)
    requires ts != [] && ParseToken(ts[0]) == Some(c) && ParseTokens(ts[1..]) == Some(cs)
    ensures ParseTokens(ts) == Some([c] + cs)
  {
  }

  lemma JoinedTokensParse(codes: seq<int>)
    ensures Join(Tokens(codes), " ") == [] <==> codes == []
    ensures codes != [] ==> Split(Join(Tokens(codes), " "), " ") == Tokens(codes)
    ensures ParseScanCodes(Join(Tokens(codes), " ")) == Some(codes)
  {
    if codes != [] {
      SplitJoin(Tokens(codes), " ");
      JoinNonEmpty(Tokens(codes), " ");
      ParseTokensOf(codes);
    }
  }

  lemma JoinNonEmpty(parts: seq<string>, sep: string)
    requires parts != [] && parts[0] != []
    ensures Join(parts, sep) != []
  {
  }
}

=== FILE: snapshot_dump.dfy ===
/**
 * The parser inside `snapshotList`: each line of
 * `VBoxManage snapshot <vm> list --machinereadable` is trimmed and matched
 * against `^(CurrentSnapshotUUID|SnapshotName|SnapshotUUID).*\="(.*)"$`;
 * a name line opens a new record, a uuid line fills in the uuid of the
 * record opened last, and a current-snapshot line sets the current uuid.
 */
module SnapshotDump {
  import opened Wrappers
  import opened JsText

  /** The alternatives of the first group, in the order the regular expression tries them. */
  datatype DumpKey = CurrentSnapshotUuid | SnapshotName | SnapshotUuid

  function KeyText(k: DumpKey): string {
    match k
    case CurrentSnapshotUuid => "CurrentSnapshotUUID"
    case SnapshotName => "SnapshotName"
    case SnapshotUuid => "SnapshotUUID"
  }

  /** A matched line: the key, the text `.*` skipped after it, and the quoted value. */
  datatype DumpMatch = DumpMatch(key: DumpKey, gap: string, value: string)

  /** The line `<key><gap>="<value>"`. */
  function DumpLine(key: DumpKey, gap: string, value: string): string {
    KeyText(key) + gap + "=\"" + value + "\""
  }

  /** One snapshot record; `uuid` is absent until a uuid line fills it in. */
  datatype Snapshot = Snapshot(name: string, uuid: Option<string>)

  /** The records in input order and the current snapshot's uuid. */
  datatype Dump = Dump(snapshots: seq<Snapshot>, current: Option<string>)

  /** `s.uuid = v` while `s` is still undefined throws a TypeError. */
  datatype DumpError = UuidBeforeName

  /** `line` matches the regular expression with these groups (`.` matches no line terminator). */
  predicate IsDumpSplit(line: string, key: DumpKey, gap: string, value: string) {
    NoLineTerminator(line) && line == DumpLine(key, gap, value)
  }

  /** No line starts with two different keys, so at most one alternative can match. */
  lemma KeysExclusive(line: string, k1: DumpKey, k2: DumpKey)
    requires StartsWith(line, KeyText(k1)) && StartsWith(line, KeyText(k2))
    ensures k1 == k2
  {
    assert line[0] == KeyText(k1)[0] == KeyText(k2)[0];
    assert line[8] == KeyText(k1)[8] == KeyText(k2)[8];
  }

  /** The alternative of the first group that starts the line. */
  function KeyOf(line: string): (r: Option<DumpKey>)
    ensures r.Some? ==> StartsWith(line, KeyText(r.value))
    ensures r.None? ==> forall k :: !StartsWith(line, KeyText(k))
  {
    if StartsWith(line, "CurrentSnapshotUUID") then Some(CurrentSnapshotUuid)
    else if StartsWith(line, "SnapshotName") then Some(SnapshotName)
    else if StartsWith(line, "SnapshotUUID") then Some(SnapshotUuid)
    else None
  }

  /** Where a split puts the pieces of the line. */
  lemma DumpSplitPosition(line: string, key: DumpKey, gap: string, value: string)
    requires IsDumpSplit(line, key, gap, value)
    ensures StartsWith(line, KeyText(key))
    ensures |line| == |KeyText(key)| + |gap| + |value| + 3 && line[|line| - 1] == '"'
    ensures OccursAt(line, "=\"", |KeyText(key)| + |gap|)
    ensures line[|KeyText(key)|..|KeyText(key)| + |gap|] == gap
    ensures line[|KeyText(key)| + |gap| + 2..|line| - 1] == value
  {
    var n := |KeyText(key)|;
    assert line[..n] == KeyText(key);
    assert line[n..n + |gap|] == gap;
    assert line[n + |gap|..n + |gap| + 2] == "=\"";
    assert line[n + |gap| + 2..|line| - 1] == value;
  }

  /** The largest index in [lo, hi] where `="` starts. */
  function LastAssign(line: string, lo: nat, hi: int): (r: Option<nat>)
    requires hi + 2 <= |line|
    decreases hi
    ensures r.Some? ==> lo <= r.value <= hi && OccursAt(line, "=\"", r.value)
    ensures forall j :: (if r.Some? then r.value + 1 else lo) <= j <= hi ==> !OccursAt(line, "=\"", j)
  {
    if hi < lo then None
    else if OccursAt(line, "=\"", hi) then Some(hi)
    else LastAssign(line, lo, hi - 1)
  }

  /** What any split of a line that starts with `key` tells about it. */
  lemma SplitFacts(line: string, key: DumpKey, k: DumpKey, g: string, v: string)
    requires StartsWith(line, KeyText(key)) && IsDumpSplit(line, k, g, v)
    ensures k == key && NoLineTerminator(line)
    ensures |line| >= |KeyText(key)| + 3 && line[|line| - 1] == '"'
    ensures |KeyText(key)| + |g| <= |line| - 3 && OccursAt(line, "=\"", |KeyText(key)| + |g|)
  {
    DumpSplitPosition(line, k, g, v);
    KeysExclusive(line, k, key);
  }

  /**
   * The regular expression of `snapshotList`. The `.*` after the key is
   * greedy, so the value starts after the last `="` that still leaves the
   * closing quote at the end of the line.
   */
  function ClassifyDumpLine(line: string): (r: Option<DumpMatch>)
    ensures KeyOf(line).None? ==> r.None?
    ensures r.Some? ==> KeyOf(line) == Some(r.value.key) && StartsWith(line, KeyText(r.value.key))
    ensures r.Some? ==> line[|line| - 1] == '"' && NoLineTerminator(line)
  {
    match KeyOf(line)
    case None => None
    case Some(key) => ClassifyAfterKey(line, key, |KeyText(key)|)
  }

  /** The rest of the match once the line starts with `key`, whose text is `n` characters long. */
  function ClassifyAfterKey(line: string, key: DumpKey, n: nat): (r: Option<DumpMatch>)
    ensures r.Some? ==> r.value.key == key && |line| >= 1 && line[|line| - 1] == '"' && NoLineTerminator(line)
  {
    if |line| < n + 3 || line[|line| - 1] != '"' || !NoLineTerminator(line) then None
    else
      match LastAssign(line, n, |line| - 3)
      case None => None
      case Some(p) => Some(DumpMatch(key, line[n..p], line[p + 2..|line| - 1]))
  }

  /**
   * What the match means: a match is a split of the line, no other key can
   * split it, and no split skips more text after the key (the greedy `.*`);
   * no match means no split at all.
   */
  lemma ClassifyDumpLineSpec(line: string)
    ensures var r := ClassifyDumpLine(line);
      && (r.Some? ==> IsDumpSplit(line, r.value.key, r.value.gap, r.value.value))
      && (r.Some? ==> forall k, g, v :: IsDumpSplit(line, k, g, v) ==> k == r.value.key && |g| <= |r.value.gap|)
      && (r.None? ==> forall k, g, v :: !IsDumpSplit(line, k, g, v))
  {
    match KeyOf(line)
    case None =>
      NoKeyNoSplit(line);
    case Some(key) =>
      var n := |KeyText(key)|;
      if |line| < n + 3 || line[|line| - 1] != '"' || !NoLineTerminator(line) {
        NoSplitForKey(line, key);
      } else {
        match LastAssign(line, n, |line| - 3)
        case None =>
          NoSplitForKey(line, key);
        case Some(p) =>
          ClassifyAt(line, key, n, p);
          SplitAtLastAssign(line, key, p);
      }
  }

  /** A line that starts with no key has no match and no split. */
  lemma NoKeyNoSplit(line: string)
    requires KeyOf(line).None?
    ensures ClassifyDumpLine(line).None?
    ensures forall k, g, v :: !IsDumpSplit(line, k, g, v)
  {
    forall k, g, v | IsDumpSplit(line, k, g, v) ensures false {
      DumpSplitPosition(line, k, g, v);
    }
  }

  /** A line that starts with `key` but has the wrong end, or no `="` after the key, has no match and no split. */
  lemma NoSplitForKey(line: string, key: DumpKey)
    requires KeyOf(line) == Some(key)
    requires |line| < |KeyText(key)| + 3 || line[|line| - 1] != '"' || !NoLineTerminator(line)
      || LastAssign(line, |KeyText(key)|, |line| - 3).None?
    ensures ClassifyDumpLine(line).None?
    ensures forall k, g, v :: !IsDumpSplit(line, k, g, v)
  {
    forall k, g, v | IsDumpSplit(line, k, g, v) ensures false {
      SplitFacts(line, key, k, g, v);
    }
  }

  /** The match splits at the last `="`: it is a split, and no split has a longer gap. */
  lemma SplitAtLastAssign(line: string, key: DumpKey, p: nat)
    requires KeyOf(line) == Some(key) && NoLineTerminator(line)
    requires |KeyText(key)| + 3 <= |line| && line[|line| - 1] == '"'
    requires LastAssign(line, |KeyText(key)|, |line| - 3) == Some(p)
    ensures IsDumpSplit(line, key, line[|KeyText(key)|..p], line[p + 2..|line| - 1])
    ensures forall k, g, v :: IsDumpSplit(line, k, g, v) ==> k == key && |g| <= p - |KeyText(key)|
  {
    MatchedSplit(line, key, p);
    forall k, g, v | IsDumpSplit(line, k, g, v) ensures k == key && |g| <= p - |KeyText(key)| {
      SplitFacts(line, key, k, g, v);
    }
  }

  lemma ClassifyAt(line: string, key: DumpKey, n: nat, p: nat)
    requires NoLineTerminator(line) && n + 3 <= |line| && line[|line| - 1] == '"'
    requires LastAssign(line, n, |line| - 3) == Some(p)
    ensures ClassifyAfterKey(line, key, n) == Some(DumpMatch(key, line[n..p], line[p + 2..|line| - 1]))
  {
  }

  lemma MatchedSplit(line: string, key: DumpKey, p: nat)
    requires StartsWith(line, KeyText(key)) && NoLineTerminator(line)
    requires |KeyText(key)| <= p && p + 3 <= |line| && line[|line| - 1] == '"'
    requires OccursAt(line, "=\"", p)
    ensures IsDumpSplit(line, key, line[|KeyText(key)|..p], line[p + 2..|line| - 1])
  {
    var n := |KeyText(key)|;
    assert line == line[..n] + line[n..p] + line[p..p + 2] + line[p + 2..|line| - 1] + line[|line| - 1..];
  }

  /**
   * A line `<key><gap>="<value>"` whose value holds no double quote reads
   * back with exactly that key, gap and value.
   */
  lemma DumpLineRoundTrip(key: DumpKey, gap: string, value: string)
    requires NoLineTerminator(gap) && NoLineTerminator(value) && '"' !in value
    ensures ClassifyDumpLine(DumpLine(key, gap, value)) == Some(DumpMatch(key, gap, value))
  {
    var line := DumpLine(key, gap, value);
    DumpLineSplits(key, gap, value);
    ClassifyOfSplit(line, key, gap, value);
    var m := ClassifyDumpLine(line).value;
    GapNotLonger(line, key, gap, value, m.gap, m.value);
    SplitsEqual(line, key, gap, value, m.gap, m.value);
  }

  /** A line with a split has a match, with the split's key and a gap at least as long. */
  lemma ClassifyOfSplit(line: string, key: DumpKey, gap: string, value: string)
    requires IsDumpSplit(line, key, gap, value)
    ensures ClassifyDumpLine(line).Some?
    ensures var m := ClassifyDumpLine(line).value;
      m.key == key && |gap| <= |m.gap| && IsDumpSplit(line, key, m.gap, m.value)
  {
    ClassifyDumpLineSpec(line);
  }

  /** When a split's value holds no double quote, no split of the line has a longer gap. */
  lemma GapNotLonger(line: string, key: DumpKey, g1: string, v1: string, g2: string, v2: string)
    requires IsDumpSplit(line, key, g1, v1) && IsDumpSplit(line, key, g2, v2) && '"' !in v1
    ensures |g2| <= |g1|
  {
    DumpSplitPosition(line, key, g1, v1);
    DumpSplitPosition(line, key, g2, v2);
    NoAssignInValue(line, |KeyText(key)| + |g1|, v1);
  }

  /** Two splits with the same key and gap length are the same split. */
  lemma SplitsEqual(line: string, key: DumpKey, g1: string, v1: string, g2: string, v2: string)
    requires IsDumpSplit(line, key, g1, v1) && IsDumpSplit(line, key, g2, v2) && |g1| == |g2|
    ensures g1 == g2 && v1 == v2
  {
    DumpSplitPosition(line, key, g1, v1);
    DumpSplitPosition(line, key, g2, v2);
  }

  /** The `.*` after the key lets a suffix through: `SnapshotName-1="x"` is a name line with value `x`. */
  lemma SuffixedNameLine()
    ensures ClassifyDumpLine("SnapshotName-1=\"x\"") == Some(DumpMatch(SnapshotName, "-1", "x"))
  {
    DumpLineRoundTrip(SnapshotName, "-1", "x");
    assert KeyText(SnapshotName) == "SnapshotName";
    assert DumpLine(SnapshotName, "-1", "x") == "SnapshotName-1=\"x\"";
  }

  lemma DumpLineSplits(key: DumpKey, gap: string, value: string)
    requires NoLineTerminator(gap) && NoLineTerminator(value)
    ensures IsDumpSplit(DumpLine(key, gap, value), key, gap, value)
  {
    var a := KeyText(key) + gap;
    assert NoLineTerminator(KeyText(key));
    NoLineTerminatorConcat(KeyText(key), gap);
    NoLineTerminatorConcat(a, "=\"");
    NoLineTerminatorConcat(a + "=\"", value);
    NoLineTerminatorConcat(a + "=\"" + value, "\"");
  }

  /** No `="` starts after position `q` when the quoted value holds no double quote. */
  lemma NoAssignInValue(line: string, q: nat, value: string)
    requires q + 3 <= |line| && line[q + 2..|line| - 1] == value && '"' !in value
    ensures forall j :: q < j <= |line| - 3 ==> !OccursAt(line, "=\"", j)
  {
    forall j | q < j <= |line| - 3 ensures !OccursAt(line, "=\"", j) {
      assert line[j..j + 2][1] == line[j + 1];
      assert line[j + 1] == value[j - q - 1];
    }
  }

  /** What the callback sees of a line: the match of its trimmed text. */
  function FieldOf(line: string): (r: Option<DumpMatch>)
    ensures IsTrimmed(line) ==> r == ClassifyDumpLine(line)
    ensures r.Some? ==> StartsWith(Trim(line), KeyText(r.value.key))
  {
    if IsTrimmed(line) then
      TrimTrimmed(line);
      ClassifyDumpLine(Trim(line))
    else ClassifyDumpLine(Trim(line))
  }

  function FieldsOf(lines: seq<string>): (fs: seq<Option<DumpMatch>>)
    ensures |fs| == |lines| && forall i :: 0 <= i < |lines| ==> fs[i] == FieldOf(lines[i])
  {
    seq(|lines|, i requires 0 <= i < |lines| => FieldOf(lines[i]))
  }

  predicate HasKey(f: Option<DumpMatch>, k: DumpKey) {
    f.Some? && f.value.key == k
  }

  /** The index of the first name line, or the number of lines when there is none. */
  function FirstName(fs: seq<Option<DumpMatch>>): (r: nat)
    ensures r <= |fs|
    ensures forall j :: 0 <= j < r ==> !HasKey(fs[j], SnapshotName)
    ensures r < |fs| ==> HasKey(fs[r], SnapshotName)
  {
    if fs == [] then 0
    else if HasKey(fs[0], SnapshotName) then 0
    else 1 + FirstName(fs[1..])
  }

  /** The value of the last line with key `k`, if any. */
  function LastValue(fs: seq<Option<DumpMatch>>, k: DumpKey): Option<string> {
    if fs == [] then None
    else if HasKey(fs[|fs| - 1], k) then Some(fs[|fs| - 1].value.value)
    else LastValue(fs[..|fs| - 1], k)
  }

  /**
   * The records, declaratively: one per name line, in order, whose uuid is
   * the value of the last uuid line between it and the next name line.
   */
  function Records(fs: seq<Option<DumpMatch>>): seq<Snapshot> {
    if fs == [] then []
    else if HasKey(fs[0], SnapshotName) then
      var tail := fs[1..];
      [Snapshot(fs[0].value.value, RecordUuid(tail))] + Records(tail)
    else Records(fs[1..])
  }

  /** The uuid of a record whose name line is followed by `tail`: the last uuid line before the next name line. */
  function RecordUuid(tail: seq<Option<DumpMatch>>): Option<string> {
    LastValue(tail[..FirstName(tail)], SnapshotUuid)
  }

  /** A line appended after the record's lines sets its uuid only when no name line came between. */
  lemma RecordUuidSnoc(t: seq<Option<DumpMatch>>, f: Option<DumpMatch>)
    ensures RecordUuid(t + [f]) ==
      if FirstName(t) == |t| && HasKey(f, SnapshotUuid) then Some(f.value.value) else RecordUuid(t)
  {
    FirstNameAppend(t, [f]);
    if FirstName(t) < |t| {
      assert (t + [f])[..FirstName(t + [f])] == t[..FirstName(t)];
    } else {
      assert t[..FirstName(t)] == t;
      if !HasKey(f, SnapshotName) {
        assert (t + [f])[..FirstName(t + [f])] == t + [f];
        assert (t + [f])[..|t + [f]| - 1] == t;
      } else {
        assert (t + [f])[..FirstName(t + [f])] == t;
      }
    }
  }

  /** A uuid line comes before every name line. */
  predicate UuidBeforeAnyName(fs: seq<Option<DumpMatch>>) {
    exists i :: 0 <= i < FirstName(fs) && HasKey(fs[i], SnapshotUuid)
  }

  /** What the parser yields for lines with these matches. */
  function DumpOf(fs: seq<Option<DumpMatch>>): Result<Dump, DumpError> {
    if UuidBeforeAnyName(fs) then Err(UuidBeforeName)
    else Ok(Dump(Records(fs), LastValue(fs, CurrentSnapshotUuid)))
  }

  /** The records with the uuid of the last one set to `v`. */
  function WithLastUuid(rs: seq<Snapshot>, v: string): (r: seq<Snapshot>)
    ensures |r| == |rs|
    ensures forall k :: 0 <= k < |rs| - 1 ==> r[k] == rs[k]
    ensures rs != [] ==> r[|rs| - 1] == Snapshot(rs[|rs| - 1].name, Some(v))
  {
    if rs == [] then [] else rs[..|rs| - 1] + [rs[|rs| - 1].(uuid := Some(v))]
  }

  lemma {:induction false} FirstNameAppend(a: seq<Option<DumpMatch>>, b: seq<Option<DumpMatch>>)
    ensures FirstName(a + b) == if FirstName(a) < |a| then FirstName(a) else |a| + FirstName(b)
  {
    if a == [] {
      assert a + b == b;
    } else {
      assert (a + b)[0] == a[0];
      assert (a + b)[1..] == a[1..] + b;
      FirstNameAppend(a[1..], b);
    }
  }

  lemma {:induction false} RecordsEmpty(fs: seq<Option<DumpMatch>>)
    ensures Records(fs) == [] <==> FirstName(fs) == |fs|
  {
    if fs != [] && !HasKey(fs[0], SnapshotName) {
      RecordsEmpty(fs[1..]);
    }
  }

  /**
   * Appending a line changes the records the way the callback does: a name
   * line appends a record without uuid, a uuid line sets the uuid of the
   * last record only, and every other line leaves them alone.
   */
  lemma {:induction false} RecordsSnoc(fs: seq<Option<DumpMatch>>, f: Option<DumpMatch>)
    ensures Records(fs + [f]) ==
      if HasKey(f, SnapshotName) then Records(fs) + [Snapshot(f.value.value, None)]
      else if HasKey(f, SnapshotUuid) then WithLastUuid(Records(fs), f.value.value)
      else Records(fs)
  {
    if fs == [] {
      assert [] + [f] == [f];
      assert [f][1..] == [];
    } else {
      var h, t := fs[0], fs[1..];
      assert (fs + [f])[0] == h;
      assert (fs + [f])[1..] == t + [f];
      RecordsSnoc(t, f);
      if HasKey(h, SnapshotName) {
        RecordUuidSnoc(t, f);
        RecordsEmpty(t);
        var x := Snapshot(h.value.value, RecordUuid(t));
        assert Records(fs) == [x] + Records(t);
        if HasKey(f, SnapshotName) {
          assert Records(fs + [f]) == [x] + (Records(t) + [Snapshot(f.value.value, None)]);
        } else if HasKey(f, SnapshotUuid) && Records(t) != [] {
          WithLastUuidCons(x, Records(t), f.value.value);
        }
      }
    }
  }

  lemma WithLastUuidCons(x: Snapshot, rs: seq<Snapshot>, v: string)
    requires rs != []
    ensures WithLastUuid([x] + rs, v) == [x] + WithLastUuid(rs, v)
  {
    assert ([x] + rs)[..|rs|] == [x] + rs[..|rs| - 1];
  }

  lemma UuidBeforeAnyNameAppend(a: seq<Option<DumpMatch>>, b: seq<Option<DumpMatch>>)
    requires UuidBeforeAnyName(a)
    ensures UuidBeforeAnyName(a + b)
  {
    FirstNameAppend(a, b);
    var i :| 0 <= i < FirstName(a) && HasKey(a[i], SnapshotUuid);
    assert (a + b)[i] == a[i];
  }

  lemma UuidBeforeAnyNamePrefix(fs: seq<Option<DumpMatch>>, n: nat)
    requires n <= |fs| && UuidBeforeAnyName(fs[..n])
    ensures UuidBeforeAnyName(fs)
  {
    UuidBeforeAnyNameAppend(fs[..n], fs[n..]);
    assert fs[..n] + fs[n..] == fs;
  }

  lemma UuidBeforeAnyNameSnoc(fs: seq<Option<DumpMatch>>, f: Option<DumpMatch>)
    requires !UuidBeforeAnyName(fs)
    ensures UuidBeforeAnyName(fs + [f]) <==> HasKey(f, SnapshotUuid) && FirstName(fs) == |fs|
  {
    FirstNameAppend(fs, [f]);
    forall i | 0 <= i < |fs| ensures (fs + [f])[i] == fs[i] {
    }
    if HasKey(f, SnapshotUuid) && FirstName(fs) == |fs| {
      assert (fs + [f])[|fs|] == f;
    }
  }

  lemma SnocPrefix<T>(s: seq<T>, i: nat)
    requires 0 < i <= |s|
    ensures s[..i] == s[..i - 1] + [s[i - 1]]
  {
  }

  /** Before any line: no records and no current snapshot. */
  lemma DumpOfNone(fs: seq<Option<DumpMatch>>)
    ensures DumpOf(fs[..0]) == Ok(Dump([], None))
  {
    assert fs[..0] == [];
    assert !UuidBeforeAnyName([]);
  }

  /** The step of the loop over the lines, stated on the prefix read so far. */
  lemma DumpStep(fs: seq<Option<DumpMatch>>, i: nat, f: Option<DumpMatch>, d: Dump)
    requires i < |fs| && fs[i] == f && DumpOf(fs[..i]) == Ok(d)
    ensures DumpOf(fs[..i + 1]) ==
        if HasKey(f, SnapshotUuid) && d.snapshots == [] then Err(UuidBeforeName)
        else if HasKey(f, CurrentSnapshotUuid) then Ok(d.(current := Some(f.value.value)))
        else if HasKey(f, SnapshotName) then Ok(d.(snapshots := d.snapshots + [Snapshot(f.value.value, None)]))
        else if HasKey(f, SnapshotUuid) then Ok(d.(snapshots := WithLastUuid(d.snapshots, f.value.value)))
        else Ok(d)
  {
    SnocPrefix(fs, i + 1);
    DumpOfSnoc(fs[..i], f);
  }

  /** One more line: the step the callback of the forEach takes. */
  lemma DumpOfSnoc(fs: seq<Option<DumpMatch>>, f: Option<DumpMatch>)
    requires DumpOf(fs).Ok?
    ensures var d := DumpOf(fs).value;
      DumpOf(fs + [f]) ==
        if HasKey(f, SnapshotUuid) && d.snapshots == [] then Err(UuidBeforeName)
        else if HasKey(f, CurrentSnapshotUuid) then Ok(d.(current := Some(f.value.value)))
        else if HasKey(f, SnapshotName) then Ok(d.(snapshots := d.snapshots + [Snapshot(f.value.value, None)]))
        else if HasKey(f, SnapshotUuid) then Ok(d.(snapshots := WithLastUuid(d.snapshots, f.value.value)))
        else Ok(d)
  {
    RecordsSnoc(fs, f);
    RecordsEmpty(fs);
    UuidBeforeAnyNameSnoc(fs, f);
    assert (fs + [f])[..|fs|] == fs;
  }

  /**
   * The forEach over the lines: `snapshots` and `currentSnapshot` are
   * updated in place; `s`, the record opened last, is the last element of
   * `snapshots`, so `s.uuid = v` updates that element.
   */
  method ParseSnapshotDump(lines: seq<string>) returns (r: Result<Dump, DumpError>)
    ensures r == DumpOf(FieldsOf(lines))
  {
    ghost var fs := FieldsOf(lines);
    var snapshots: seq<Snapshot> := [];
    var currentSnapshot: Option<string> := None;
    var i := 0;
    DumpOfNone(fs);
    while i < |lines|
      invariant 0 <= i <= |lines|
      invariant DumpOf(fs[..i]) == Ok(Dump(snapshots, currentSnapshot))
    {
      var field := FieldOf(lines[i]);
      DumpStep(fs, i, field, Dump(snapshots, currentSnapshot));
      match field {
        case None =>
        case Some(m) =>
          match m.key {
            case CurrentSnapshotUuid =>
              assert HasKey(field, CurrentSnapshotUuid);
              currentSnapshot := Some(m.value);
            case SnapshotName =>
              assert HasKey(field, SnapshotName);
              snapshots := snapshots + [Snapshot(m.value, None)];
            case SnapshotUuid =>
              assert HasKey(field, SnapshotUuid);
              if snapshots == [] {
                UuidBeforeAnyNamePrefix(fs, i + 1);
                return Err(UuidBeforeName);
              }
              snapshots := WithLastUuid(snapshots, m.value);
          }
      }
      i := i + 1;
    }
    assert fs[..i] == fs;
    r := Ok(Dump(snapshots, currentSnapshot));
  }

  /** The values of the name lines, in input order. */
  function NameValues(fs: seq<Option<DumpMatch>>): seq<string> {
    if fs == [] then []
    else if HasKey(fs[0], SnapshotName) then [fs[0].value.value] + NameValues(fs[1..])
    else NameValues(fs[1..])
  }

  function Names(rs: seq<Snapshot>): (r: seq<string>)
    ensures |r| == |rs| && forall k :: 0 <= k < |rs| ==> r[k] == rs[k].name
  {
    seq(|rs|, k requires 0 <= k < |rs| => rs[k].name)
  }

  /** One record per name line, in input order, named by that line's value. */
  lemma {:induction false} RecordNames(fs: seq<Option<DumpMatch>>)
    ensures Names(Records(fs)) == NameValues(fs)
  {
    if fs != [] {
      RecordNames(fs[1..]);
      if HasKey(fs[0], SnapshotName) {
        var rest := Records(fs[1..]);
        var s := Snapshot(fs[0].value.value, RecordUuid(fs[1..]));
        assert Records(fs) == [s] + rest;
        assert Names([s] + rest) == [s.name] + Names(rest);
      }
    }
  }

  /** `LastValue` is the value of a line with key `k` that no later line with key `k` follows. */
  lemma {:induction false} LastValueSpec(fs: seq<Option<DumpMatch>>, k: DumpKey, v: string)
    ensures LastValue(fs, k) == Some(v) <==>
      exists i :: 0 <= i < |fs| && HasKey(fs[i], k) && fs[i].value.value == v
        && forall j :: i < j < |fs| ==> !HasKey(fs[j], k)
  {
    if fs != [] {
      var init, last := fs[..|fs| - 1], fs[|fs| - 1];
      LastValueSpec(init, k, v);
      assert fs == init + [last];
      if HasKey(last, k) {
        if last.value.value == v {
          assert HasKey(fs[|fs| - 1], k) && fs[|fs| - 1].value.value == v;
        }
      } else {
        forall i | 0 <= i < |init| ensures init[i] == fs[i] {
        }
      }
    }
  }

  /** `LastValue` is none exactly when no line has key `k`. */
  lemma {:induction false} LastValueNone(fs: seq<Option<DumpMatch>>, k: DumpKey)
    ensures LastValue(fs, k) == None <==> forall i :: 0 <= i < |fs| ==> !HasKey(fs[i], k)
  {
    if fs != [] {
      var init := fs[..|fs| - 1];
      LastValueNone(init, k);
      forall i | 0 <= i < |init| ensures init[i] == fs[i] {
      }
    }
  }

  /** `(stdout || '').split(require('os').EOL)`, with the platform's line separator as a parameter. */
  predicate IsEol(eol: string) {
    eol == "\n" || eol == "\r\n"
  }

  function DumpOfStdout(stdout: string, eol: string): Result<Dump, DumpError>
    requires IsEol(eol)
  {
    DumpOf(FieldsOf(Split(stdout, eol)))
  }

  /** `resolve(snapshots, currentSnapshot)`: a promise resolves with one value, so only the records reach the caller. */
  function Resolved(d: Result<Dump, DumpError>): (r: Result<seq<Snapshot>, DumpError>)
    ensures r.Ok? <==> d.Ok?
    ensures d.Ok? ==> r.value == d.value.snapshots
    ensures d.Err? ==> r.error == d.error
  {
    match d
    case Ok(dump) => Ok(dump.snapshots)
    case Err(e) => Err(e)
  }

  /** Whatever the current snapshot is, the caller receives the same records. */
  lemma ResolvedIgnoresCurrent(d: Dump, c: Option<string>)
    ensures Resolved(Ok(d.(current := c))) == Resolved(Ok(d))
  {
  }

  /** `snapshotList` as written: the parsed records, without the current snapshot. */
  method SnapshotListAsWritten(stdout: string, eol: string) returns (r: Result<seq<Snapshot>, DumpError>)
    requires IsEol(eol)
    ensures r == Resolved(DumpOfStdout(stdout, eol))
    ensures r.Ok? ==> Names(r.value) == NameValues(FieldsOf(Split(stdout, eol)))
  {
    var d := ParseSnapshotDump(Split(stdout, eol));
    RecordNames(FieldsOf(Split(stdout, eol)));
    r := Resolved(d);
  }

  /** `snapshotList` as intended: the records together with the current snapshot's uuid. */
  method SnapshotList(stdout: string, eol: string) returns (r: Result<Dump, DumpError>)
    requires IsEol(eol)
    ensures r == DumpOfStdout(stdout, eol)
    ensures r.Ok? ==> Names(r.value.snapshots) == NameValues(FieldsOf(Split(stdout, eol)))
    ensures r.Ok? ==> r.value.current == LastValue(FieldsOf(Split(stdout, eol)), CurrentSnapshotUuid)
  {
    r := ParseSnapshotDump(Split(stdout, eol));
    RecordNames(FieldsOf(Split(stdout, eol)));
  }

  /** The output of a machine with no snapshots but a current-snapshot line. */
  lemma CurrentOnlyDump(v: string, eol: string)
    requires IsEol(eol) && NoLineTerminator(v) && '"' !in v
    ensures DumpOfStdout(DumpLine(CurrentSnapshotUuid, "", v), eol) == Ok(Dump([], Some(v)))
  {
    var line := DumpLine(CurrentSnapshotUuid, "", v);
    DumpLineSplits(CurrentSnapshotUuid, "", v);
    EolSplit(line, eol);
    FieldsOfOne(line);
    DumpLineField(CurrentSnapshotUuid, "", v);
    CurrentOnlyFields(Some(DumpMatch(CurrentSnapshotUuid, "", v)));
  }

  /** A line without line terminators is not split by the line separator. */
  lemma EolSplit(line: string, eol: string)
    requires IsEol(eol) && NoLineTerminator(line)
    ensures Split(line, eol) == [line]
  {
    assert IsLineTerminator(eol[|eol| - 1]);
    NoLineTerminatorNoSplit(line, eol);
  }

  lemma FieldsOfOne(line: string)
    ensures FieldsOf([line]) == [FieldOf(line)]
  {
  }

  /** Trimming leaves a dump line alone, so the callback sees its match. */
  lemma DumpLineField(key: DumpKey, gap: string, value: string)
    requires NoLineTerminator(gap) && NoLineTerminator(value) && '"' !in value
    ensures FieldOf(DumpLine(key, gap, value)) == Some(DumpMatch(key, gap, value))
  {
    var line := DumpLine(key, gap, value);
    DumpLineRoundTrip(key, gap, value);
    DumpSplitPosition(line, key, gap, value);
    assert line[0] == KeyText(key)[0];
    TrimTrimmed(line);
  }

  lemma CurrentOnlyFields(f: Option<DumpMatch>)
    requires HasKey(f, CurrentSnapshotUuid)
    ensures DumpOf([f]) == Ok(Dump([], Some(f.value.value)))
  {
    assert FirstName([f]) == 1;
    assert Records([f]) == [];
  }

  /**
   * The one-line outputs `CurrentSnapshotUUID="v1"` and
   * `CurrentSnapshotUUID="v2"` give different dumps but resolve to the same
   * value: from them the caller cannot learn which snapshot is current.
   */
  lemma CurrentSnapshotDropped(v1: string, v2: string, eol: string)
    requires IsEol(eol) && v1 != v2
    requires NoLineTerminator(v1) && '"' !in v1 && NoLineTerminator(v2) && '"' !in v2
    ensures var s1 := DumpLine(CurrentSnapshotUuid, "", v1);
      var s2 := DumpLine(CurrentSnapshotUuid, "", v2);
      && Resolved(DumpOfStdout(s1, eol)) == Resolved(DumpOfStdout(s2, eol))
      && DumpOfStdout(s1, eol) != DumpOfStdout(s2, eol)
  {
    CurrentOnlyDump(v1, eol);
    CurrentOnlyDump(v2, eol);
  }
}

=== FILE: snapshot_take.dfy ===
/**
 * `snapshotTake`: the command it appends together, and the uuid it reads
 * from the last line VBoxManage prints.
 */
module SnapshotTake {
  import opened Wrappers
  import opened JsText
  import opened Json

  /** What a take command asks for; `description` is absent when the command has no description. */
  datatype TakeRequest = TakeRequest(vmname: string, name: string, description: Option<string>, live: bool)

  /** `if(description)`: a description is used only when it is a non-empty string. */
  predicate HasDescription(description: Option<string>) {
    description.Some? && description.value != ""
  }

  /**
   * Builds the command the way `snapshotTake` does, by appending to `cmd`.
   * `live` is the argument as passed; only `true` itself adds ` --live`.
   */
  method TakeCommand(vmname: string, name: string, description: Option<string>, live: Option<bool>) returns (cmd: string)
    ensures var request := TakeRequest(vmname, name, if HasDescription(description) then description else None, live == Some(true));
      cmd == TakeCommandText(request) && ParseTakeCommand(cmd) == Some(request)
  {
    cmd := "snapshot " + Quote(vmname) + " take " + Quote(name);
    ghost var head, tail := cmd, "";
    if description.Some? && description.value != "" {
      Append(head, " --description ", Quote(description.value));
      cmd := cmd + " --description " + Quote(description.value);
      tail := " --description " + Quote(description.value);
    }
    assert cmd == head + tail;
    if live == Some(true) {
      Append(head, tail, " --live");
      cmd := cmd + " --live";
      tail := tail + " --live";
    } else {
      assert tail + "" == tail;
    }
    ghost var d := if HasDescription(description) then description else None;
    assert tail == TakeOptionsText(d, live == Some(true));
    TakeCommandParses(vmname, name, d, live == Some(true));
  }

  lemma Append(a: string, b: string, c: string)
    ensures a + b + c == a + (b + c)
  {
  }

  /** The command for a request: `snapshot <json(vm)> take <json(name)>`, then the options. */
  function TakeCommandText(r: TakeRequest): string {
    "snapshot " + Quote(r.vmname) + " take " + Quote(r.name) + TakeOptionsText(r.description, r.live)
  }

  /** ` --description <json(description)>` when there is one, then ` --live` when asked for. */
  function TakeOptionsText(description: Option<string>, live: bool): string {
    (if description.Some? then " --description " + Quote(description.value) else "")
      + (if live then " --live" else "")
  }

  /** Reads the optional tail of a take command. */
  function ParseTakeOptions(s: string): Option<(Option<string>, bool)> {
    if StartsWith(s, " --description ") then
      match DecodeString(s[15..])
      case None => None
      case Some((d, rest)) =>
        if rest == "" then Some((Some(d), false))
        else if rest == " --live" then Some((Some(d), true))
        else None
    else if s == "" then Some((None, false))
    else if s == " --live" then Some((None, true))
    else None
  }

  /** Reads a take command back into the request it stands for. */
  function ParseTakeCommand(cmd: string): Option<TakeRequest> {
    if StartsWith(cmd, "snapshot ") then ParseTakeArgs(cmd[9..]) else None
  }

  /** Reads what follows `snapshot `: the quoted VM name, then ` take ` and the rest. */
  function ParseTakeArgs(s: string): Option<TakeRequest> {
    match DecodeString(s)
    case None => None
    case Some((vm, r1)) => if StartsWith(r1, " take ") then ParseTakeName(vm, r1[6..]) else None
  }

  /** Reads the quoted snapshot name and the options after it. */
  function ParseTakeName(vm: string, s: string): Option<TakeRequest> {
    match DecodeString(s)
    case None => None
    case Some((name, r2)) =>
      match ParseTakeOptions(r2)
      case None => None
      case Some((d, live)) => Some(TakeRequest(vm, name, d, live))
  }

  /** Every command reads back as the request it was built from. */
  lemma TakeCommandParses(vmname: string, name: string, description: Option<string>, live: bool)
    ensures ParseTakeCommand(TakeCommandText(TakeRequest(vmname, name, description, live)))
      == Some(TakeRequest(vmname, name, description, live))
  {
    var opts := TakeOptionsText(description, live);
    var q1, q2 := Quote(vmname), Quote(name);
    QuoteDecodes(vmname, " take " + q2 + opts);
    QuoteDecodes(name, opts);
    TakeOptionsParse(description, live);
    ParseOfParts(q1, q2, opts, vmname, name, description, live);
  }

  lemma ParseOfParts(q1: string, q2: string, opts: string, vm: string, name: string, d: Option<string>, live: bool)
    requires DecodeString(q1 + (" take " + q2 + opts)) == Some((vm, " take " + q2 + opts))
    requires DecodeString(q2 + opts) == Some((name, opts))
    requires ParseTakeOptions(opts) == Some((d, live))
    ensures ParseTakeCommand("snapshot " + q1 + " take " + q2 + opts) == Some(TakeRequest(vm, name, d, live))
  {
    TakeSuffix(q2, opts);
    ParseNameOf(vm, name, q2 + opts, opts, d, live);
    ParseArgsOf(q1 + (" take " + q2 + opts), vm, " take " + q2 + opts, TakeRequest(vm, name, d, live));
    SnapshotPrefix(q1, q2, opts);
  }

  lemma TakeSuffix(q2: string, opts: string)
    ensures StartsWith(" take " + q2 + opts, " take ") && (" take " + q2 + opts)[6..] == q2 + opts
  {
  }

  lemma SnapshotPrefix(q1: string, q2: string, opts: string)
    ensures var cmd := "snapshot " + q1 + " take " + q2 + opts;
      StartsWith(cmd, "snapshot ") && cmd[9..] == q1 + (" take " + q2 + opts)
  {
  }

  lemma ParseNameOf(vm: string, name: string, s: string, opts: string, d: Option<string>, live: bool)
    requires DecodeString(s) == Some((name, opts)) && ParseTakeOptions(opts) == Some((d, live))
    ensures ParseTakeName(vm, s) == Some(TakeRequest(vm, name, d, live))
  {
  }

  lemma ParseArgsOf(s: string, vm: string, r1: string, req: TakeRequest)
    requires DecodeString(s) == Some((vm, r1)) && StartsWith(r1, " take ")
    requires ParseTakeName(vm, r1[6..]) == Some(req)
    ensures ParseTakeArgs(s) == Some(req)
  {
  }

  lemma TakeOptionsParse(description: Option<string>, live: bool)
    ensures ParseTakeOptions(TakeOptionsText(description, live)) == Some((description, live))
  {
    var l := if live then " --live" else "";
    if description.Some? {
      DescriptionPrefix(Quote(description.value), l);
      QuoteDecodes(description.value, l);
    } else {
      assert "" + l == l;
    }
  }

  lemma DescriptionPrefix(q: string, l: string)
    ensures var s := " --description " + q + l;
      StartsWith(s, " --description ") && s[15..] == q + l
  {
  }

  /** A character of the class `[a-f0-9\-]`. */
  predicate IsUuidChar(c: char) {
    ('0' <= c <= '9') || ('a' <= c <= 'f') || c == '-'
  }

  /** `/UUID\: ([a-f0-9\-]+)$/` matches `t` at `i`: `UUID: ` there, then one or more class characters up to the end. */
  predicate UuidMatchAt(t: string, i: int) {
    OccursAt(t, "UUID: ", i) && i + 6 < |t| && forall j :: i + 6 <= j < |t| ==> IsUuidChar(t[j])
  }

  /** The regular expression matches at one place at most, since `UUID: ` is not made of class characters. */
  lemma UuidMatchUnique(t: string, i: int, j: int)
    requires UuidMatchAt(t, i) && UuidMatchAt(t, j)
    ensures i == j
  {
    MarkerEndsWithSpace(t, i);
    MarkerEndsWithSpace(t, j);
  }

  lemma MarkerEndsWithSpace(t: string, i: int)
    requires OccursAt(t, "UUID: ", i)
    ensures t[i + 5] == ' '
  {
    assert t[i..i + 6][5] == t[i + 5];
  }

  /** Where the run of class characters at the end of `t[..hi]` starts. */
  function TrailingRun(t: string, hi: nat): (k: nat)
    requires hi <= |t|
    ensures k <= hi && forall j :: k <= j < hi ==> IsUuidChar(t[j])
    ensures k == 0 || !IsUuidChar(t[k - 1])
  {
    if hi == 0 || !IsUuidChar(t[hi - 1]) then hi else TrailingRun(t, hi - 1)
  }

  /**
   * The uuid `snapshotTake` resolves with: the group of the match in the
   * trimmed output, or none (`undefined`) when the expression does not match.
   */
  function TakenUuid(stdout: string): (r: Option<string>)
    ensures r.Some? ==> exists i :: UuidMatchAt(Trim(stdout), i) && r.value == Trim(stdout)[i + 6..]
    ensures forall i :: UuidMatchAt(Trim(stdout), i) ==> r == Some(Trim(stdout)[i + 6..])
  {
    UuidMatch(Trim(stdout))
  }

  /** The group of the match in `t`, if the expression matches. */
  function UuidMatch(t: string): (r: Option<string>)
    ensures r.Some? ==> exists i :: UuidMatchAt(t, i) && r.value == t[i + 6..]
    ensures forall i :: UuidMatchAt(t, i) ==> r == Some(t[i + 6..])
  {
    var k := TrailingRun(t, |t|);
    if 6 <= k < |t| && t[k - 6..k] == "UUID: " then
      assert UuidMatchAt(t, k - 6);
      assert forall i :: UuidMatchAt(t, i) ==> k == i + 6 by {
        forall i | UuidMatchAt(t, i) ensures k == i + 6 {
          RunStartsAfterMarker(t, i, k);
        }
      }
      Some(t[k..])
    else
      assert forall i :: !UuidMatchAt(t, i) by {
        forall i | UuidMatchAt(t, i) ensures false {
          RunStartsAfterMarker(t, i, k);
        }
      }
      None
  }

  /** The run of class characters at the end starts right after the `UUID: ` of any match. */
  lemma RunStartsAfterMarker(t: string, i: int, k: nat)
    requires UuidMatchAt(t, i) && k <= |t|
    requires forall j :: k <= j < |t| ==> IsUuidChar(t[j])
    requires k == 0 || !IsUuidChar(t[k - 1])
    ensures k == i + 6 && t[k - 6..k] == "UUID: "
  {
    MarkerEndsWithSpace(t, i);
  }

  /** Output ending in `UUID: <uuid>` gives back the uuid, whatever white space surrounds the output. */
  lemma TakenUuidOfOutput(prefix: string, uuid: string, ws: string)
    requires uuid != [] && forall j :: 0 <= j < |uuid| ==> IsUuidChar(uuid[j])
    requires AllTrimmable(ws)
    ensures TakenUuid(prefix + "UUID: " + uuid + ws) == Some(uuid)
  {
    var p := TrimStart(prefix);
    assert IsUuidChar(uuid[|uuid| - 1]);
    TrimOutput(prefix, uuid, ws);
    MatchOfTrimmed(p, uuid);
    TakenUuidOfTrim(prefix + "UUID: " + uuid + ws, p + "UUID: " + uuid, uuid);
  }

  lemma TakenUuidOfTrim(s: string, t: string, u: string)
    requires Trim(s) == t && UuidMatch(t) == Some(u)
    ensures TakenUuid(s) == Some(u)
  {
  }

  lemma MatchOfTrimmed(p: string, uuid: string)
    requires uuid != [] && forall j :: 0 <= j < |uuid| ==> IsUuidChar(uuid[j])
    ensures UuidMatch(p + "UUID: " + uuid) == Some(uuid)
  {
    var t := p + "UUID: " + uuid;
    OutputMatches(p, uuid);
    assert t[|p| + 6..] == uuid;
  }

  /** `trim` removes the white space before the prefix and after the uuid. */
  lemma TrimOutput(prefix: string, uuid: string, ws: string)
    requires uuid != [] && !IsTrimmable(uuid[|uuid| - 1])
    requires AllTrimmable(ws)
    ensures Trim(prefix + "UUID: " + uuid + ws) == TrimStart(prefix) + "UUID: " + uuid
  {
    TrimAroundText(prefix, "UUID: ", uuid, ws);
  }

  lemma TrimAroundText(prefix: string, m: string, u: string, ws: string)
    requires m != [] && !IsTrimmable(m[0])
    requires u != [] && !IsTrimmable(u[|u| - 1])
    requires AllTrimmable(ws)
    ensures Trim(prefix + m + u + ws) == TrimStart(prefix) + m + u
  {
    var p := TrimStart(prefix);
    var w := prefix[..|prefix| - |p|];
    LeadingSplit(prefix, p);
    var t := p + m + u;
    Regroup(w, p, m, u, ws);
    assert t[|t| - 1] == u[|u| - 1];
    assert t[0] == if p == [] then m[0] else p[0];
    TrimAround(w, t, ws);
  }

  lemma LeadingSplit(s: string, p: string)
    requires |p| <= |s| && p == s[|s| - |p|..]
    ensures s == s[..|s| - |p|] + p
  {
  }

  lemma Regroup(w: string, p: string, m: string, u: string, ws: string)
    ensures w + p + m + u + ws == w + (p + m + u) + ws
  {
  }

  lemma OutputMatches(prefix: string, uuid: string)
    requires uuid != [] && forall j :: 0 <= j < |uuid| ==> IsUuidChar(uuid[j])
    ensures UuidMatchAt(prefix + "UUID: " + uuid, |prefix|)
  {
    var t := prefix + "UUID: " + uuid;
    assert t[|prefix|..|prefix| + 6] == "UUID: ";
    forall j | |prefix| + 6 <= j < |t| ensures IsUuidChar(t[j]) {
      assert t[j] == uuid[j - |prefix| - 6];
    }
  }
}

=== FILE: vm_exec.dfy ===
/**
 * `vmExec`: the options it reads through chains of `||`, and the
 * `guestcontrol` command it builds for the guest's operating system.
 */
module VmExec {
  import opened Wrappers
  import opened JsText
  import opened Responses

  /** An option value: a string or an array of strings. */
  datatype OptValue = Str(s: string) | Arr(items: seq<string>)

  /** The options object: absent keys read as `undefined`. */
  type Options = map<string, OptValue>

  function Lookup(o: Options, key: string): Option<OptValue> {
    if key in o then Some(o[key]) else None
  }

  /** JavaScript truthiness: `undefined` and the empty string are false, every array is true. */
  predicate Truthy(v: Option<OptValue>) {
    v.Some? && (v.value.Arr? || v.value.s != "")
  }

  /** `o[k0] || o[k1] || ... || o[kn]`. */
  function FirstTruthy(o: Options, keys: seq<string>): Option<OptValue>
    requires keys != []
  {
    if |keys| == 1 || Truthy(Lookup(o, keys[0])) then Lookup(o, keys[0])
    else FirstTruthy(o, keys[1..])
  }

  /** The chain yields the first truthy value, or the last one when none is truthy. */
  lemma {:induction false} FirstTruthySpec(o: Options, keys: seq<string>)
    requires keys != []
    ensures var r := FirstTruthy(o, keys);
      && (Truthy(r) <==> exists k :: 0 <= k < |keys| && Truthy(Lookup(o, keys[k])))
      && (Truthy(r) ==> exists k :: (0 <= k < |keys| && r == Lookup(o, keys[k])
            && forall j :: 0 <= j < k ==> !Truthy(Lookup(o, keys[j]))))
      && (!Truthy(r) ==> r == Lookup(o, keys[|keys| - 1]))
  {
    if |keys| > 1 && !Truthy(Lookup(o, keys[0])) {
      var tail := keys[1..];
      FirstTruthySpec(o, tail);
      var r := FirstTruthy(o, tail);
      if Truthy(r) {
        var k :| 0 <= k < |tail| && r == Lookup(o, tail[k])
          && forall j :: 0 <= j < k ==> !Truthy(Lookup(o, tail[j]));
        assert r == Lookup(o, keys[k + 1]);
        forall j | 0 <= j < k + 1 ensures !Truthy(Lookup(o, keys[j])) {
          if j > 0 {
            assert keys[j] == tail[j - 1];
          }
        }
      } else {
        forall k | 0 <= k < |keys| ensures !Truthy(Lookup(o, keys[k])) {
          if k > 0 {
            assert keys[k] == tail[k - 1];
          }
        }
      }
    }
  }

  /** What `+` makes of a value inside a string: `undefined`, the string, or the elements joined by commas. */
  function Text(v: Option<OptValue>): string {
    match v
    case None => "undefined"
    case Some(Str(s)) => s
    case Some(Arr(items)) => Join(items, ",")
  }

  /**
   * `path.replace(/\\/g, '\\\\')`: every backslash doubled. Halving the
   * pairs gives the path back, so nothing else changes.
   */
  function DoubleBackslashes(p: string): (r: string)
    ensures HalveBackslashes(r) == Some(p)
  {
    if p == [] then []
    else
      var rest := DoubleBackslashes(p[1..]);
      var r := (if p[0] == '\\' then "\\\\" else [p[0]]) + rest;
      assert [p[0]] + p[1..] == p;
      if p[0] == '\\' then
        assert r[2..] == rest;
        r
      else
        assert r[1..] == rest;
        r
  }

  /** Reads a path back from its doubled form: a pair of backslashes is one backslash. */
  function HalveBackslashes(q: string): Option<string> {
    if q == [] then Some([])
    else if q[0] != '\\' then
      match HalveBackslashes(q[1..])
      case None => None
      case Some(p) => Some([q[0]] + p)
    else if |q| >= 2 && q[1] == '\\' then
      match HalveBackslashes(q[2..])
      case None => None
      case Some(p) => Some(['\\'] + p)
    else None
  }

  /** `path.replace` on a path that is not a string throws a TypeError; the chained promise rejects with it. */
  datatype ExecError = PathNotString

  /** The subcommand: ` run ` from VirtualBox 5 on, ` execute  --image ` before or when the version is unknown. */
  function RunCommand(version: Option<int>): (r: string)
    ensures |r| >= 2 && r[0] == ' ' && r[|r| - 1] == ' '
    ensures r == " run " <==> version.Some? && version.value >= 5
  {
    if version.Some? && version.value >= 5 then " run " else " execute  --image "
  }

  /** The program that runs the path, and the flag that hands it over. */
  function Program(os: OsType): string {
    match os
    case Windows => " \"cmd.exe\""
    case Mac => " \"/usr/bin/open -a\""
    case Linux => " \"/bin/bash\""
  }

  function ProgramFlag(os: OsType): string {
    match os
    case Windows => "\"/c\""
    case Mac => "\"/c\""
    case Linux => "\"-c\""
  }

  /** The options `vmExec` reads, with their fallbacks. */
  datatype ExecOptions = ExecOptions(
    vm: Option<OptValue>, username: Option<OptValue>, password: Option<OptValue>,
    path: Option<OptValue>, params: string)

  function ReadOptions(o: Options): (r: ExecOptions)
    ensures Truthy(r.username)
    ensures Truthy(Lookup(o, "user")) ==> r.username == Lookup(o, "user")
    ensures !Truthy(Lookup(o, "user")) && Truthy(Lookup(o, "username")) ==> r.username == Lookup(o, "username")
    ensures !Truthy(Lookup(o, "user")) && !Truthy(Lookup(o, "username")) ==> r.username == Some(Str("Guest"))
    ensures "params" !in o && "parameters" !in o && "args" !in o ==> r.params == ""
    ensures "params" in o && o["params"].Arr? ==> r.params == Join(o["params"].items, " ")
    ensures "params" in o && o["params"].Str? && o["params"].s != "" ==> r.params == o["params"].s
  {
    var user := FirstTruthy(o, ["user", "username"]);
    var params := FirstTruthy(o, ["params", "parameters", "args"]);
    FirstOfTwo(o, "user", "username");
    FirstOfTwo(o, "parameters", "args");
    FirstOfThree(o, "params", "parameters", "args");
    ExecOptions(
      FirstTruthy(o, ["vm", "name", "vmname", "title"]),
      if Truthy(user) then user else Some(Str("Guest")),
      FirstTruthy(o, ["pass", "passwd", "password"]),
      FirstTruthy(o, ["path", "cmd", "command", "exec", "execute", "run"]),
      match params
      case None => ""
      case Some(Arr(items)) => Join(items, " ")
      case Some(Str(s)) => s)
  }

  lemma FirstOfTwo(o: Options, a: string, b: string)
    ensures FirstTruthy(o, [a, b]) == if Truthy(Lookup(o, a)) then Lookup(o, a) else Lookup(o, b)
  {
    assert [a, b][1..] == [b];
  }

  lemma FirstOfThree(o: Options, a: string, b: string, c: string)
    ensures FirstTruthy(o, [a, b, c]) == if Truthy(Lookup(o, a)) then Lookup(o, a) else FirstTruthy(o, [b, c])
  {
    assert [a, b, c][1..] == [b, c];
  }

  /** The path as it goes into the command: backslashes doubled for Windows guests. */
  function PathText(os: OsType, path: Option<OptValue>): Result<string, ExecError> {
    if os == Windows then
      match path
      case Some(Str(p)) => Ok(DoubleBackslashes(p))
      case _ => Err(PathNotString)
    else Ok(Text(path))
  }

  /** The common start of every command: the VM, then the subcommand. */
  function CommandHead(o: Options, version: Option<int>): string {
    "guestcontrol \"" + Text(ReadOptions(o).vm) + "\"" + RunCommand(version)
  }

  /** The `guestcontrol` command `vmExec` runs, or the error it rejects with. */
  function ExecCommand(o: Options, os: OsType, version: Option<int>): (r: Result<string, ExecError>)
    ensures r.Err? <==> os == Windows && !(ReadOptions(o).path.Some? && ReadOptions(o).path.value.Str?)
  {
    var opts := ReadOptions(o);
    match PathText(os, opts.path)
    case Err(e) => Err(e)
    case Ok(path) => Ok(CommandHead(o, version) + Program(os) + CommandTail(opts, os, path))
  }

  /** After the program: the user, the password when one is truthy, the flag, the path and the parameters. */
  function CommandTail(opts: ExecOptions, os: OsType, path: string): string {
    " --username " + Text(opts.username) + PasswordPart(opts.password) + ArgsPart(os, path, opts.params)
  }

  function PasswordPart(password: Option<OptValue>): string {
    if Truthy(password) then " --password " + Text(password) else ""
  }

  function ArgsPart(os: OsType, path: string, params: string): string {
    " -- " + ProgramFlag(os) + " \"" + path + "\" \"" + params + "\""
  }

  /** A Windows guest's string path goes in with its backslashes doubled, after the flag `"/c"` and before the parameters. */
  lemma ExecCommandWindowsPath(o: Options, version: Option<int>, p: string)
    requires ReadOptions(o).path == Some(Str(p))
    ensures ExecCommand(o, Windows, version).Ok?
    ensures EndsWith(ExecCommand(o, Windows, version).value,
      " -- \"/c\" \"" + DoubleBackslashes(p) + "\" \"" + ReadOptions(o).params + "\"")
  {
    var opts := ReadOptions(o);
    var path := DoubleBackslashes(p);
    assert " -- " + ProgramFlag(Windows) + " \"" == " -- \"/c\" \"";
    CommandEnds(o, Windows, version, path);
  }

  /** A Mac or Linux guest's path goes in as its text, unchanged, after the guest's flag and before the parameters. */
  lemma ExecCommandPathAsIs(o: Options, os: OsType, version: Option<int>)
    requires os != Windows
    ensures ExecCommand(o, os, version).Ok?
    ensures EndsWith(ExecCommand(o, os, version).value,
      " -- " + (if os == Linux then "\"-c\"" else "\"/c\"") + " \"" + Text(ReadOptions(o).path) + "\" \"" + ReadOptions(o).params + "\"")
  {
    CommandEnds(o, os, version, Text(ReadOptions(o).path));
  }

  /** The command ends with the arguments built from the path text. */
  lemma CommandEnds(o: Options, os: OsType, version: Option<int>, path: string)
    requires PathText(os, ReadOptions(o).path) == Ok(path)
    ensures ExecCommand(o, os, version) == Ok(CommandHead(o, version) + Program(os) + CommandTail(ReadOptions(o), os, path))
    ensures EndsWith(ExecCommand(o, os, version).value, ArgsPart(os, path, ReadOptions(o).params))
  {
    var opts := ReadOptions(o);
    var h := CommandHead(o, version) + Program(os);
    var u := " --username " + Text(opts.username) + PasswordPart(opts.password);
    Reassociate(h, u, ArgsPart(os, path, opts.params));
  }

  /**
   * After the user comes ` --password <password>` when the password is
   * truthy, and the ` -- ` that starts the arguments right away when it is not.
   */
  lemma ExecCommandPassword(o: Options, os: OsType, version: Option<int>)
    requires ExecCommand(o, os, version).Ok?
    ensures var opts := ReadOptions(o);
      StartsWith(ExecCommand(o, os, version).value,
        "guestcontrol \"" + Text(opts.vm) + "\"" + RunCommand(version) + Program(os) + " --username " + Text(opts.username)
          + (if Truthy(opts.password) then " --password " + Text(opts.password) + " -- " else " -- "))
  {
    var opts := ReadOptions(o);
    var path := PathText(os, opts.path).value;
    CommandEnds(o, os, version, path);
    var hp := CommandHead(o, version) + Program(os);
    var u := " --username " + Text(opts.username);
    var w := PasswordPart(opts.password);
    var rest := ProgramFlag(os) + " \"" + path + "\" \"" + opts.params + "\"";
    ArgsSplit(ProgramFlag(os), path, opts.params);
    var x := hp + u;
    Reassociate(hp, " --username ", Text(opts.username));
    Reassociate(hp, u + w, " -- " + rest);
    Reassociate(hp, u, w);
    Reassociate(x + w, " -- ", rest);
    if Truthy(opts.password) {
      Reassociate(x, " --password " + Text(opts.password), " -- ");
    } else {
      assert x + w == x;
    }
  }

  /** The arguments are ` -- ` and then the flag, the path and the parameters. */
  lemma ArgsSplit(flag: string, path: string, params: string)
    ensures " -- " + flag + " \"" + path + "\" \"" + params + "\""
      == " -- " + (flag + " \"" + path + "\" \"" + params + "\"")
  {
  }

  /** Re-associating a concatenation keeps each end. */
  lemma Reassociate(a: string, b: string, c: string)
    ensures a + (b + c) == a + b + c
    ensures StartsWith(a + b + c, a + b) && EndsWith(a + b + c, c)
  {
  }

  /** The command names the guest's shell right after the subcommand, so different guests get different commands. */
  lemma ExecCommandNamesProgram(o: Options, os1: OsType, os2: OsType, version: Option<int>)
    requires ExecCommand(o, os1, version).Ok? && ExecCommand(o, os2, version).Ok?
    requires ExecCommand(o, os1, version) == ExecCommand(o, os2, version)
    ensures os1 == os2
  {
    ProgramAfterHead(o, os1, version);
    ProgramAfterHead(o, os2, version);
    ProgramsDiffer(os1, os2);
  }

  lemma ProgramAfterHead(o: Options, os: OsType, version: Option<int>)
    requires ExecCommand(o, os, version).Ok?
    ensures var c := ExecCommand(o, os, version).value;
      var h := CommandHead(o, version);
      |h| + 4 <= |c| && c[|h|..|h| + 4] == Program(os)[..4]
  {
    var opts := ReadOptions(o);
    InfixAt(CommandHead(o, version), Program(os), CommandTail(opts, os, PathText(os, opts.path).value));
  }

  lemma InfixAt(h: string, p: string, t: string)
    requires |p| >= 4
    ensures |h| + 4 <= |h + p + t| && (h + p + t)[|h|..|h| + 4] == p[..4]
  {
  }

  /** The programs differ within their first four characters. */
  lemma ProgramsDiffer(os1: OsType, os2: OsType)
    ensures os1 != os2 ==> Program(os1)[..4] != Program(os2)[..4]
  {
    assert Program(Windows)[2] == 'c' && Program(Mac)[2] == '/' && Program(Linux)[2] == '/';
    assert Program(Mac)[3] == 'u' && Program(Linux)[3] == 'b';
    assert Program(os1)[..4][2] == Program(os1)[2] && Program(os2)[..4][2] == Program(os2)[2];
    assert Program(os1)[..4][3] == Program(os1)[3] && Program(os2)[..4][3] == Program(os2)[3];
  }
}

=== FILE: wrappers.dfy ===
/** Option and Result, the two failure-carrying shapes the model uses. */
module Wrappers {

  /** `None` stands for JavaScript's `undefined`. */
  datatype Option<+T> = None | Some(value: T)

  /** `Err` stands for a rejected promise or a thrown exception. */
  datatype Result<+T, +E> = Ok(value: T) | Err(error: E)
}
